=== FILE: README.md ===
# Order ledger with a write-through Redis cache

This project models the order store of a small retail application. The store has two halves:

- **The ledger.** A MySQL database holds the orders, their item rows and the product catalogue.
- **The cache.** A Redis instance holds three things:
  - one `order:<id>` hash per order (id, user, total, creation time);
  - an `orders` set that indexes those ids;
  - one `product_sales:<id>` counter per product, holding the units sold.

The write side (`src/commands/write_order.py`) covers three operations:

- `add_order` validates a request, prices it from the catalogue, commits the order with one item row per line, then records it in the cache.
- `delete_order` removes an order from both stores.
- `sync_all_orders_to_redis` refills an empty cache from the ledger.

The read side (`src/queries/read_order.py`) covers:

- a point read and the "newest orders first" listings, one from each store;
- two top-10 reports computed from the cache: the highest-spending users and the most-sold products.

## How it is modelled

- `LedgerStore.Ledger` and `CacheStore.Cache` are classes whose fields the operations update.
- The ledger's fields are `orders`, `items`, `catalogue` and the next auto-increment id.
- The cache's fields are `hashes`, `index` and `counters`. A missing counter reads as 0, as in `GET ... or 0`.
- The write operations are methods with `modifies` clauses. Each one states the new value of every field it may change: the ledger's orders, item rows, catalogue and next id, and the cache's hashes, index and counters. Counters are stated in one of two ways. `AddOrder`, `DeleteOrder`, `DeleteOrderAsWritten` and the increment and decrement loops give the new counter map itself, as `Credit` or `Debit` of the old one. `AddThenDelete`, `SyncOrder`, `SyncOrders`, `RebuildCache` and `SyncAllOrdersToRedis` give the value each counter reads, through `Count`, and not the map.
- These loops of the source are methods with loop invariants: parsing ids, pricing lines, incrementing or decrementing counters, collecting index members, reading hashes, and the sync loop. The loops that only build a value (the item rows, the per-user expenses, the sales rows and the ranking by `enumerate`) are recursive functions.
- Most of these loops are proved equal to a specification function. Two are not: `ReadOrder.CollectMembers` and `WriteOrder.SyncOrders` state properties of their result instead.
- The reports are functions over the cache's contents. Lemmas state what the reports promise.
- `Mirror.Mirrors` is the invariant that ties the two stores together:
  - the index and the hash keys equal the ledger's order ids;
  - each hash carries its order's id, user and total (`Types.SameOrder`); `created_at` is not compared, because an added order's hash holds the time of the cache write and a synced one the ledger's value;
  - each product's counter equals the units that the ledger's orders hold of that product.
- Adding an order preserves `Mirror.Mirrors`. So does the corrected delete. A sync of an empty cache establishes it, when the cache also has no index entry, every counter reads 0, and the ledger holds at most 9999 orders.
- While it holds, both listings agree on id, user and total, entry by entry, and the spending report from the cache equals the one from the ledger.

Money and quantities are exact `real`s. Python's `int()` truncation of a quantity is `Types.Truncate`.

## Model

| member | source | states |
|---|---|---|
| WriteOrder.ParseIds | src/commands/write_order.py:17-23 | parsing succeeds iff every `product_id` parses, and then yields the ids in order; otherwise the error is `InvalidProductId` at the first position that does not parse |
| WriteOrder.ParseProductIds | src/commands/write_order.py:17-23 | the parsing loop returns exactly `ParseIds` |
| WriteOrder.PriceAll | src/commands/write_order.py:32-48 | pricing succeeds iff every item has a parsable, non-zero, positive quantity and a product in the catalogue; each line carries the catalogue price; on failure the error names the first failing item and its reason, the quantity checks before the catalogue check |
| WriteOrder.PriceAllFailsAt | src/commands/write_order.py:32-40 | when the items before position k pass, pricing fails with the error that item k's quantity or product calls for |
| WriteOrder.PriceItems | src/commands/write_order.py:29-48 | the pricing loop returns `PriceAll`, and its running total is the sum of unit price times quantity over the lines |
| WriteOrder.Validate | src/commands/write_order.py:14-48 | a request is accepted iff the user id is non-zero, the item list is non-empty and every item passes; a missing user or empty list is reported first, then an unparsable id, then the first pricing failure |
| WriteOrder.ItemRows | src/commands/write_order.py:54-63 | one item row per priced line, in order, each carrying the new order's id and the line's product, quantity and unit price |
| LedgerStore.Ledger.ItemsOf | src/commands/write_order.py:143 | the item rows queried for an order all belong to it; an order that no longer exists has none |
| LedgerStore.Ledger.Commit | src/commands/write_order.py:50-65 | the commit adds the order under the next id together with its item rows, and changes nothing else |
| LedgerStore.Ledger.Delete | src/commands/write_order.py:85-86 | deleting an order removes it and, by cascade, its item rows |
| WriteOrder.IncrementSales | src/commands/write_order.py:121-126 | each line adds its truncated quantity to its product's counter; hashes and index are unchanged |
| WriteOrder.DecrementSales | src/commands/write_order.py:146-148 | each item row subtracts its truncated quantity from its product's counter; hashes and index are unchanged |
| WriteOrder.AddOrderToRedis | src/commands/write_order.py:100-126 | the cache gains the order's hash and index entry, and every counter grows by the order's units |
| WriteOrder.CheckOrder | src/commands/write_order.py:14-48 | the checks made before anything is written return exactly `Validate`'s verdict, and when the request is accepted the running total is the sum over its priced lines |
| WriteOrder.AddOrder | src/commands/write_order.py:12-76 | a request is accepted iff `Validate` accepts it, and a rejected one returns that error and leaves both stores unchanged; an accepted one commits the order under a fresh id, with total equal to the sum over its lines and one row per item; it stores a hash with the new id, the user, that total and the cache-write time `now` (the ledger row keeps its own `createdAt`), adds the id to the index, grows each counter by the order's units and leaves the others alone; it preserves `Mirrors` |
| WriteOrder.DeleteOrderFromRedis | src/commands/write_order.py:133-159 | the order's hash and index entry are removed, and each counter drops by the units of the given lines |
| WriteOrder.DeleteOrder | src/commands/write_order.py:78-98 | returns 1 iff the order exists; otherwise nothing changes; when it exists, the order and its rows leave the ledger; its hash and index entry leave the cache and each counter drops by the order's units; the point read then finds nothing, and `Mirrors` is preserved |
| WriteOrder.DeleteOrderFromRedisAsWritten | src/commands/write_order.py:133-159 | as the source orders it: the counters are decremented by the rows the ledger still holds for the order |
| WriteOrder.DeleteOrderAsWritten | src/commands/write_order.py:78-98 | returns 1 iff the order exists, and otherwise changes nothing; when it exists, the order and its rows leave the ledger, with the next id and catalogue kept, and its hash and index entry leave the cache; the source's order of steps (ledger delete first) leaves every counter unchanged; starting from `Mirrors`, the result mirrors the ledger iff the order held no units |
| WriteOrder.AsWrittenDeleteKeepsSales | src/commands/write_order.py:84-89 | adding an order for 2 units of a product and deleting it with the source's order of steps leaves no order but a counter of 2 |
| WriteOrder.CorrectedDeleteClearsSales | src/commands/write_order.py:84-89 | the same add and delete with the corrected order of steps leaves no order and a counter of 0 |
| WriteOrder.AddThenDelete | src/commands/write_order.py:12-98 | whenever the cache has no hash or index entry under the next id, even one that has drifted from the ledger, adding an order and deleting it again restores the ledger's orders, item rows and catalogue, the hashes, the index and every counter's value; the next id stays advanced by one when the order was accepted; a cache that mirrored the ledger still does; both stores stay valid |
| WriteOrder.SyncOrder | src/commands/write_order.py:189-209 | one sync step stores the order's projection, indexes it and grows each counter by the order's units |
| WriteOrder.SyncOrders | src/commands/write_order.py:186-213 | the sync loop adds one hash and one index entry per listed order, counts them, and grows each counter by the listed orders' units |
| WriteOrder.SyncStep | src/commands/write_order.py:187-211 | glue lemma for the sync loop's invariant: one more listed order adds its id to the synced set and its units to the synced total |
| WriteOrder.RebuildCache | src/commands/write_order.py:177-215 | refilling an empty cache stores exactly the orders that the ledger listing returns, as projections; it grows each counter by those orders' units |
| WriteOrder.SyncAllOrdersToRedis | src/commands/write_order.py:169-222 | a cache with any `order:*` hash is left unchanged, and the count is the number of hashes; an empty one is refilled and the count is the number of orders listed; when the cache holds nothing at all and the ledger at most 9999 orders, the result satisfies `Mirrors` |
| Sales.Credit | src/commands/write_order.py:121-126 | incrementing never removes a counter key (the value of each counter is stated by `Sales.CreditCount`) |
| Sales.Debit | src/commands/write_order.py:146-148 | decrementing never removes a counter key (the value of each counter is stated by `Sales.DebitCount`) |
| Sales.CreditCount | src/commands/write_order.py:121-126 | after the increments, each counter equals its old value plus the units the lines hold of its product |
| Sales.DebitCount | src/commands/write_order.py:146-148 | after the decrements, each counter equals its old value minus those units |
| Sales.DebitUndoesCredit | src/commands/write_order.py:121-148 | decrementing by the same lines restores every counter's value |
| Sales.UnitsOutside | src/commands/write_order.py:121-126 | a product that none of the lines names gains no units |
| Sales.SeqSalesIsSalesOf | src/commands/write_order.py:187-209 | summing units along a listing without repeats equals summing them over the set of its ids |
| Sales.SalesOfRemove | src/commands/write_order.py:146-148 | the units of a set of orders are one order's units plus those of the rest |
| Mirror.Mirrors | src/commands/write_order.py:100-159 | the invariant the write-through keeps: index and hash keys equal the ledger's order ids, each hash has its order's id, user and total, and each counter equals the ledger's units of its product; when it holds over a ledger keyed by id, every hash carries its own id |
| Mirror.AddKeepsMirror | src/commands/write_order.py:50-126 | committing a new order and recording a hash with its id, user and total (any `created_at`) preserves `Mirrors` |
| Mirror.DeleteKeepsMirror | src/commands/write_order.py:85-159 | removing an order from both stores and decrementing by its rows preserves `Mirrors` |
| Mirror.DeleteWithoutDebitMirror | src/commands/write_order.py:85-159 | removing an order without decrementing preserves `Mirrors` iff the order held no units of any product |
| Mirror.WholeListing | src/queries/read_order.py:16-19 | a listing limited to 9999 covers every order when the ledger holds no more |
| Mirror.RebuiltMirror | src/commands/write_order.py:177-213 | glue lemma: its requires are the sync loop's results over the whole ledger, from no index entry and zero counters, and it concludes `Mirrors` |
| Mirror.PresentAll | src/queries/read_order.py:45-61 | when every listed id has a hash, the read returns one hash per id, in order |
| Mirror.MirrorReadsAgree | src/queries/read_order.py:16-61 | while the cache mirrors the ledger, the cache listing has as many entries as the ledger listing, and entry i of each has the same id, user and total |
| ReadOrder.GetOrderById | src/queries/read_order.py:11-14 | the read finds a value iff the order's hash exists, and that value is the hash |
| ReadOrder.NewestIds | src/queries/read_order.py:16-19 | the ids are strictly decreasing, drawn from the set, and there are min(count, limit) of them |
| ReadOrder.NewestIdsOmits | src/queries/read_order.py:16-19 | every id left out is smaller than every id kept, and none is left out when the set fits the limit |
| ReadOrder.OrdersFromMysql | src/queries/read_order.py:16-19 | the listing holds min(count, limit) ledger orders |
| ReadOrder.OrdersFromMysqlFacts | src/queries/read_order.py:16-19 | the listing has one entry per newest id, and entry i is the ledger order stored under the i-th newest id |
| ReadOrder.OrdersFromMysqlNewest | src/queries/read_order.py:16-19 | the listing is ordered by strictly decreasing id, and every order left out is older than all those listed |
| ReadOrder.Present | src/queries/read_order.py:45-61 | reading hashes for a list of ids yields at most one order per id, and the hash of every id that has one |
| ReadOrder.PresentFacts | src/queries/read_order.py:45-61 | when every hash carries its own id, each order read is the hash of one of the ids; when the ids decrease, so do the ids of the orders read |
| ReadOrder.OrdersFromRedis | src/queries/read_order.py:21-63 | an empty index gives an empty list; otherwise at most `limit` orders (Python slice semantics), each with a hash, by strictly decreasing id; every hashed id among the first `limit` ids of the reverse-sorted index is returned, so every hashed id appears when the index fits the limit; when the limit cuts the index, every hashed id of the index that was left out is older than each order returned |
| ReadOrder.IndexPrefixOmits | src/queries/read_order.py:40-43 | the index's ids, sorted in reverse and cut with `[:limit]`, strictly decrease and come from the index, and an id cut off is smaller than each one kept |
| ReadOrder.PresentOmits | src/queries/read_order.py:45-61 | when the ids read are newer than all the others, a hashed id that was not read is older than every order read |
| ReadOrder.CollectMembers | src/queries/read_order.py:34-39 | the decoding loop lists each index member exactly once |
| ReadOrder.SortedIdsAreDescending | src/queries/read_order.py:40 | sorting the decoded ids in reverse gives the index's ids from largest to smallest |
| ReadOrder.ReadHashes | src/queries/read_order.py:46-61 | the read loop returns `Present` |
| ReadOrder.GetOrdersFromRedis | src/queries/read_order.py:21-63 | the method returns `OrdersFromRedis` of the cache's index and hashes |
| ReadOrder.ExpensesFacts | src/queries/read_order.py:86-89 | the per-user accumulation lists each user once; a user appears iff they have an order, with the sum of their order totals |
| ReadOrder.AddExpenseFacts | src/queries/read_order.py:87-89 | adding one order's amount keeps users distinct and raises only that user's total |
| ReadOrder.SortedExpensesFacts | src/queries/read_order.py:92 | the sorted totals are non-increasing, with distinct users; each entry is a user's full spending; every user with an order is present |
| ReadOrder.SpendingReportFacts | src/queries/read_order.py:69-104 | no orders gives an empty report; otherwise at most 10 entries ranked 1, 2, …; each entry carries a user's total spent and their non-zero order count; totals are non-increasing and users distinct |
| ReadOrder.SpendingReportOmits | src/queries/read_order.py:92 | a user with orders who is missing from the report means the report is full, and that user spent no more than the tenth entry |
| ReadOrder.SalesRowsFacts | src/queries/read_order.py:129-148 | the rows are exactly the keyed products with a positive counter that are in the catalogue; each carries the counter, the catalogue name and price, and the counter times the price; no duplicates when the keys have none |
| ReadOrder.SortedSalesFacts | src/queries/read_order.py:151 | the sorted rows are non-increasing in quantity, and still hold exactly the eligible products |
| ReadOrder.MostSoldProductsFacts | src/queries/read_order.py:110-157 | an empty key list gives an empty report; otherwise at most 10 entries ranked 1, 2, … Each entry is a keyed catalogue product whose quantity is its positive counter, whose name and price are the catalogue's, and whose revenue is quantity times current price; quantities are non-increasing |
| ReadOrder.MostSoldProductsDistinct | src/queries/read_order.py:129-157 | distinct counter keys give distinct products in the report |
| ReadOrder.MostSoldProductsOmits | src/queries/read_order.py:151-157 | an eligible product missing from the report means the report is full, and it sold no more than the tenth entry |
| ReadOrder.AddExpense | src/queries/read_order.py:89 | `expenses_by_user[user_id] += amount` never empties the mapping and adds at most one user |
| ReadOrder.Expenses | src/queries/read_order.py:86-89 | the per-user totals hold at most one entry per order, and are empty iff there are no orders |
| ReadOrder.SpendingReport | src/queries/read_order.py:82-104 | at most 10 entries, and an empty report iff there are no orders |
| ReadOrder.HighestSpendingUsers | src/queries/read_order.py:69-104 | at most 10 entries; an empty index gives an empty report; when some id among the 9999 newest indexed ids has a hash (in particular, when the index fits the 9999 listing and some indexed id has a hash), the report is not empty |
| ReadOrder.SpendingReportBySpenders | src/queries/read_order.py:86-101 | the spending report reads only each order's user and total: two order lists that agree on those, position by position, give the same report |
| Mirror.MirrorReportAgrees | src/queries/read_order.py:69-104 | while the cache mirrors the ledger, the spending report computed from the cache equals the report over the projections of the ledger's newest 9999 orders |
| ReadOrder.SalesRows | src/queries/read_order.py:129-148 | the loop over the counter keys adds at most one row per key |
| ReadOrder.RankedSale | src/queries/read_order.py:135-148 | a report row built from a product's `SaleOf` carries its counter, its catalogue name and current price, and the counter times that price as revenue |
| ReadOrder.MostSoldProducts | src/queries/read_order.py:110-157 | at most 10 entries |
| ReadOrder.MostSoldProductsOverCounters | src/queries/read_order.py:113-157 | when the keys are the cache's counter keys, each listed once as `KEYS` gives them: the report is empty iff no counter is positive for a catalogued product; every entry names a counter, no product twice; an eligible counter left out means a full report whose tenth entry sold at least as much |
| Ranking.SortDesc | src/queries/read_order.py:92 | the sort keeps the input's length (its ordering, permutation and stability are stated by `Ranking.SortDescFacts`) |
| Ranking.SortDescFacts | src/queries/read_order.py:92 | the stable descending sort is a permutation of its input, ordered by key, and keeps the input order among equal keys |
| Ranking.DescendingIds | src/queries/read_order.py:40 | the set's elements, strictly decreasing, each exactly once |
| Ranking.DescendingUnique | src/queries/read_order.py:40 | two strictly decreasing lists with the same elements are equal |
| Ranking.PyPrefix | src/queries/read_order.py:43 | `s[:n]`: the first n elements for n ≥ 0, and all but the last −n for negative n |
| Ranking.Take | src/queries/read_order.py:157 | the first n elements, or all of them when there are fewer |
| Ranking.OutsideTop | src/queries/read_order.py:92-157 | in a list ordered by key, an element outside the first n means there are n before it, none with a smaller key |
| Types.Amount | src/commands/write_order.py:29-43 | the order total accumulated over the priced lines is non-negative when every price and quantity is |
| Types.Truncate | src/commands/write_order.py:123 | `int()` of a float truncates toward zero: for non-negative q, n ≤ q < n + 1; for negative q, n − 1 < q ≤ n |

## Left out

- The cache is assumed available; no cache call fails in the model. In the source, failures are handled in several ways:
  - the cache writes of add and delete sit in a `try` whose exception is printed and dropped, so a failed write leaves the stores out of step;
  - `get_order_by_id` has no `try`, so a failed `HGETALL` raises to the caller (src/queries/read_order.py:11-14);
  - `sync_all_orders_to_redis` connects and runs `KEYS order:*` before its `try`, so a failure there raises to the caller (src/commands/write_order.py:172-173); a failure inside the `try` is printed and the sync returns 0 (src/commands/write_order.py:218-220);
  - `get_orders_from_redis`, `get_highest_spending_users` and `get_most_sold_products` print the error and return `[]` (src/queries/read_order.py:65-67, 106-108, 162-164).
- `AddOrder` also does not report cache errors, because the source swallows them.
- The ledger's own failure path is left out. In the source, `session.flush()` or `session.commit()` can raise, for example on a foreign-key failure for `user_id`; the session is then rolled back and the error re-raised (src/commands/write_order.py:72-74). The model's `LedgerStore.Ledger.Commit` always succeeds.
- Connections, sessions, `print` output and the HTML report view are left out. `src/views/report_view.py` is not part of this model.
- Floating point is modelled as exact reals, so float rounding in totals is left out.
- NaN and infinite quantities are left out, because a real cannot be either. In the source, a `nan` or `inf` quantity passes the check at src/commands/write_order.py:36, since both comparisons there are false for `nan` and `inf` is positive. The total is then `nan` or `inf`, and the ledger's flush and commit (src/commands/write_order.py:50-65) must accept that non-finite `total_amount` before the cache is reached at all; whether the database does is not part of this model. If it does, `int(float(...))` at src/commands/write_order.py:123 raises for both `nan` and `inf` inside `add_order_to_redis`. That happens after the hash and the index entry were written, and the error is swallowed.
- `WriteOrder.Validate` treats `not qty` and `qty <= 0` together as "non-positive". Without NaN the two conditions coincide.
- String and bytes conversion is left out: key formatting (`order:<id>`, `product_sales:<id>`), and decoding hash fields and `KEYS` results. Hashes are typed `CachedOrder` values, and counter keys are product ids.
- The model reads each hash as the order written to it. The source's decoding at src/queries/read_order.py:56-59 may not do that. It looks up str field names and then calls `.decode`. With bytes replies (redis-py's default), the lookups miss, so every order would decode as id 0, user 0 and total 0.0. With `decode_responses=True`, `.decode` on a str raises, and the function returns `[]`. The connection settings are in `src/db.py`, which is not part of this model, so this is unconfirmed. The listing and spending-report facts hold only under the typed-hash reading.
- A raw item whose `product_id` or `quantity` fails to parse is modelled as `None`. The model does not cover which strings parse.
- `created_at` is modelled as two parameters of `WriteOrder.AddOrder`. `now` stands for `datetime.now()`, which the source writes into the cache hash (src/commands/write_order.py:111). `createdAt` is whatever the ledger row holds, which `add_order` never sets (src/commands/write_order.py:50); where that value comes from is defined in `src/models/order.py`, which is not part of this model. The sync path copies the ledger's value, or the empty string when the row has none (src/commands/write_order.py:196), so after a sync the same order's hash may hold a different `created_at` than after an add. `Mirror.Mirrors`, `Mirror.AddKeepsMirror`, `WriteOrder.AddOrder` and `Mirror.MirrorReadsAgree` therefore compare only id, user and total.
- The cascade of item rows on order delete belongs to the ORM mapping. The model assumes it, because `src/models/order.py` is not part of this model.
- `WriteOrder.AddOrderToRedis`: the source re-parses the raw items. The model passes the priced lines instead, which carry the same product ids and quantities.
- Redis `KEYS` enumeration order is unspecified. `ReadOrder.MostSoldProducts` takes it as a `keys` parameter, and the ties in the product report follow that order.
- `WriteOrder.SyncAllOrdersToRedis` requires only that ledger orders are stored under their own id. It does not require the full ledger invariant.
- `WriteOrder.SyncAllOrdersToRedis`: a non-empty cache is detected by its `order:*` hashes, as the source does, and not by the `orders` index. `Mirrors` is established only from a cache with no hash, no index entry and every counter at 0. Otherwise the refill adds to whatever index entries and counters remain.
- `WriteOrder.SyncAllOrdersToRedis` lists at most 9999 orders, because the source reuses `get_orders_from_mysql()` with its default limit. A larger ledger is only partly synced.
- Revenue in the product report uses the catalogue's current price, not the unit price stored on the item rows. That is what the source does, and `ReadOrder.SaleOf` models it.
- Concurrency is left out: interleaved requests and the window between the ledger commit and the cache update.
- Integer width is not modelled. Python integers and Redis 64-bit counters are taken as unbounded.

## Findings

| source | as written | input that shows it | evidently intended | confidence | as-written member | corrected member |
|---|---|---|---|---|---|---|
| src/commands/write_order.py:84-89, 143 | `delete_order` deletes and commits the order (cascading to its item rows), and only then calls `delete_order_from_redis`. That function queries the item rows to decrement the sales counters, finds none, and so leaves every counter unchanged. | Add one order for 2 units of product 1, then delete it. The order is gone, but `product_sales:1` still reads 2. | Read the order's item rows before the ledger delete, so the counters drop by the deleted order's units. | not executed; depends on the ORM cascading item rows on delete | WriteOrder.DeleteOrderAsWritten, WriteOrder.AsWrittenDeleteKeepsSales | WriteOrder.DeleteOrder, WriteOrder.CorrectedDeleteClearsSales |

=== FILE: cache.dfy ===
/**
 * The derived cache: one hash per order (`order:<id>`), the `orders` index set of
 * order ids, and one sold-quantity counter per product (`product_sales:<pid>`).
 * Keys are typed rather than formatted strings.
 */
module CacheStore {
  import opened Types

  class Cache {
    var hashes: map<int, CachedOrder>
    var index: set<int>
    var counters: map<int, int>

    /** Every hash is stored under the id it carries. */
    ghost predicate Valid()
      reads this
    {
      HashesKeyed(hashes)
    }

    constructor ()
      ensures Valid()
      ensures hashes == map[] && index == {} && counters == map[]
    {
      hashes := map[];
      index := {};
      counters := map[];
    }
  }
}

=== FILE: ledger.dfy ===
/**
 * The authoritative relational store: orders, their item rows and the product
 * catalogue, with the auto-increment id the next inserted order receives.
 */
module LedgerStore {
  import opened Types

  /** Every row belongs to order `id` and has a positive quantity. */
  predicate RowsOf(rows: seq<OrderItem>, id: int)
  {
    forall r :: r in rows ==> r.orderId == id && r.quantity > 0.0
  }

  class Ledger {
    var orders: map<int, Order>
    var items: map<int, seq<OrderItem>>
    var catalogue: map<int, Product>
    var nextId: int

    /**
     * Every order is stored under its id, below the next auto-increment id, owns its
     * item rows, and its total is the sum of quantity times unit price over them.
     */
    ghost predicate Valid()
      reads this
    {
      && 1 <= nextId
      && items.Keys == orders.Keys
      && OrdersKeyed(orders)
      && (forall id :: id in orders ==> 1 <= id < nextId)
      && (forall id :: id in items ==> RowsOf(items[id], id) && orders[id].totalAmount == Amount(Lines(items[id])))
    }

    constructor (catalogue: map<int, Product>)
      ensures Valid()
      ensures orders == map[] && items == map[] && this.catalogue == catalogue && nextId == 1
    {
      orders := map[];
      items := map[];
      this.catalogue := catalogue;
      nextId := 1;
    }

    /** The item rows of order `id` (`order_items` filtered on `order_id`). */
    function ItemsOf(id: int): (rows: seq<OrderItem>)
      reads this
      ensures Valid() ==> RowsOf(rows, id)
      ensures id !in orders && Valid() ==> rows == []
    {
      ItemsAt(items, id)
    }

    /**
     * Flush and commit of a new order: `o` takes the next auto-increment id and is
     * stored together with its item rows.
     */
    method Commit(o: Order, rows: seq<OrderItem>)
      requires Valid()
      requires o.id == nextId
      requires RowsOf(rows, o.id) && o.totalAmount == Amount(Lines(rows))
      modifies this
      ensures Valid()
      ensures orders == old(orders)[o.id := o] && items == old(items)[o.id := rows]
      ensures nextId == old(nextId) + 1 && catalogue == old(catalogue)
    {
      orders := orders[o.id := o];
      items := items[o.id := rows];
      nextId := nextId + 1;
    }

    /** Delete and commit of an order; its item rows go with it. */
    method Delete(id: int)
      requires Valid() && id in orders
      modifies this
      ensures Valid()
      ensures orders == old(orders) - {id} && items == old(items) - {id}
      ensures nextId == old(nextId) && catalogue == old(catalogue)
    {
      orders := orders - {id};
      items := items - {id};
    }
  }
}

=== FILE: mirror.dfy ===
/**
 * What the write-through keeps true between the ledger and the cache: one hash and
 * one index entry per ledger order, and each sales counter equal to the units the
 * ledger's orders hold of its product.
 */
module Mirror {
  import opened Types
  import opened Ranking
  import opened Sales
  import opened ReadOrder

  /** The cache holds exactly the ledger's orders (id, user and total) and the ledger's sales. */
  ghost predicate Mirrors(orders: map<int, Order>, items: map<int, seq<OrderItem>>,
                          hashes: map<int, CachedOrder>, index: set<int>, counters: map<int, int>)
    ensures Mirrors(orders, items, hashes, index, counters) && OrdersKeyed(orders) ==> HashesKeyed(hashes)
  {
    && index == orders.Keys
    && hashes.Keys == orders.Keys
    && (forall id :: id in hashes ==> SameOrder(hashes[id], orders[id]))
    && (forall p :: Count(counters, p) == SalesOf(orders.Keys, items, p))
  }

  /** The projections of a list of ledger orders, in the same order. */
  function Projected(os: seq<Order>): (r: seq<CachedOrder>)
    ensures |r| == |os|
    ensures forall i :: 0 <= i < |os| ==> r[i] == Project(os[i])
  {
    seq(|os|, i requires 0 <= i < |os| => Project(os[i]))
  }

  /**
   * Recording a new order in the cache (hash, index entry, one increment per line)
   * keeps the mirror when the ledger gains that order with those lines.
   */
  lemma AddKeepsMirror(orders: map<int, Order>, items: map<int, seq<OrderItem>>,
                       hashes: map<int, CachedOrder>, index: set<int>, counters: map<int, int>,
                       o: Order, rows: seq<OrderItem>, c: CachedOrder)
    requires Mirrors(orders, items, hashes, index, counters)
    requires o.id !in orders
    requires SameOrder(c, o)
    ensures Mirrors(orders[o.id := o], items[o.id := rows], hashes[o.id := c], index + {o.id},
                    Credit(counters, Lines(rows)))
  {
    var id := o.id;
    var orders', items' := orders[id := o], items[id := rows];
    CreditCount(counters, Lines(rows));
    forall p ensures Count(Credit(counters, Lines(rows)), p) == SalesOf(orders'.Keys, items', p) {
      assert orders'.Keys - {id} == orders.Keys;
      SalesOfRemove(orders'.Keys, items', p, id);
      SalesOfFrame(orders.Keys, items, items', p);
    }
  }

  /**
   * Removing an order from the cache and decrementing by its lines keeps the mirror
   * when the ledger loses that order and its item rows.
   */
  lemma DeleteKeepsMirror(orders: map<int, Order>, items: map<int, seq<OrderItem>>,
                          hashes: map<int, CachedOrder>, index: set<int>, counters: map<int, int>, id: int)
    requires Mirrors(orders, items, hashes, index, counters)
    requires id in orders
    ensures Mirrors(orders - {id}, items - {id}, hashes - {id}, index - {id},
                    Debit(counters, Lines(ItemsAt(items, id))))
  {
    var lines := Lines(ItemsAt(items, id));
    DebitCount(counters, lines);
    assert (orders - {id}).Keys == orders.Keys - {id};
    forall p ensures Count(Debit(counters, lines), p) == SalesOf(orders.Keys - {id}, items - {id}, p) {
      SalesOfRemove(orders.Keys, items, p, id);
      SalesOfFrame(orders.Keys - {id}, items, items - {id}, p);
    }
  }

  /**
   * Removing an order from the cache WITHOUT touching the counters keeps the mirror
   * exactly when the order held no unit of any product.
   */
  lemma DeleteWithoutDebitMirror(orders: map<int, Order>, items: map<int, seq<OrderItem>>,
                                 hashes: map<int, CachedOrder>, index: set<int>, counters: map<int, int>, id: int)
    requires Mirrors(orders, items, hashes, index, counters)
    requires id in orders
    ensures Mirrors(orders - {id}, items - {id}, hashes - {id}, index - {id}, counters)
            <==> forall p :: OrderUnits(items, id, p) == 0
  {
    assert (orders - {id}).Keys == orders.Keys - {id};
    forall p ensures Count(counters, p) == OrderUnits(items, id, p) + SalesOf(orders.Keys - {id}, items - {id}, p) {
      SalesOfRemove(orders.Keys, items, p, id);
      SalesOfFrame(orders.Keys - {id}, items, items - {id}, p);
    }
  }

  /** A listing limited to 9999 orders covers the whole ledger when it holds no more. */
  lemma WholeListing(orders: map<int, Order>)
    requires |orders| <= 9999
    ensures Elems(NewestIds(orders.Keys, 9999)) == orders.Keys
  {
    assert |orders.Keys| == |orders|;
    NewestIdsOmits(orders.Keys, 9999);
  }

  /**
   * A cache refilled from a listing of the whole ledger, starting with no index entry
   * and every counter at 0, mirrors the ledger.
   */
  lemma RebuiltMirror(orders: map<int, Order>, items: map<int, seq<OrderItem>>,
                      hashes: map<int, CachedOrder>, index: set<int>, counters: map<int, int>,
                      countersBefore: map<int, int>, synced: set<int>)
    requires synced == orders.Keys
    requires hashes.Keys == synced
    requires forall id :: id in hashes ==> id in orders && hashes[id] == Project(orders[id])
    requires index == {} + synced
    requires forall p :: Count(countersBefore, p) == 0
    requires forall p :: Count(counters, p) == Count(countersBefore, p) + SalesOf(synced, items, p)
    ensures Mirrors(orders, items, hashes, index, counters)
  {
  }

  /** Reading ids that all have a hash returns every one of those hashes, in order. */
  lemma {:induction false} PresentAll(ids: seq<int>, hashes: map<int, CachedOrder>)
    requires forall id :: id in ids ==> id in hashes
    ensures |Present(ids, hashes)| == |ids|
    ensures forall i :: 0 <= i < |ids| ==> ids[i] in hashes && Present(ids, hashes)[i] == hashes[ids[i]]
  {
    if ids != [] {
      var init, last := ids[..|ids| - 1], ids[|ids| - 1];
      assert ids == init + [last];
      assert forall id :: id in init ==> id in ids;
      PresentAll(init, hashes);
      assert last in hashes;
      assert Present(ids, hashes) == Present(init, hashes) + [hashes[last]];
    }
  }

  /** Reading the cache's newest ids yields the ledger's newest ids when both hold the same ids. */
  lemma SameNewestIds(orders: map<int, Order>, index: set<int>, limit: nat)
    requires index == orders.Keys && index != {}
    ensures PyPrefix(DescendingIds(index), limit) == NewestIds(orders.Keys, limit)
  {
  }

  /**
   * While the cache mirrors the ledger, the newest orders read from the cache are the
   * newest orders read from the ledger, in the same order, with the same id, user and total.
   */
  lemma MirrorReadsAgree(orders: map<int, Order>, items: map<int, seq<OrderItem>>,
                         hashes: map<int, CachedOrder>, index: set<int>, counters: map<int, int>, limit: nat)
    requires Mirrors(orders, items, hashes, index, counters)
    requires OrdersKeyed(orders)
    ensures |OrdersFromRedis(index, hashes, limit)| == |OrdersFromMysql(orders, limit)|
    ensures forall i :: 0 <= i < |OrdersFromMysql(orders, limit)| ==>
      SameOrder(OrdersFromRedis(index, hashes, limit)[i], OrdersFromMysql(orders, limit)[i])
  {
    ProjectionsAgree(orders, hashes, index, limit);
  }

  /**
   * While the cache mirrors the ledger, the spending report computed from the cache is
   * the one the ledger's newest 9999 orders would give.
   */
  lemma MirrorReportAgrees(orders: map<int, Order>, items: map<int, seq<OrderItem>>,
                           hashes: map<int, CachedOrder>, index: set<int>, counters: map<int, int>)
    requires Mirrors(orders, items, hashes, index, counters)
    requires OrdersKeyed(orders)
    ensures HighestSpendingUsers(index, hashes) == SpendingReport(Projected(OrdersFromMysql(orders, 9999)))
  {
    ProjectionsAgree(orders, hashes, index, 9999);
    SpendingReportBySpenders(OrdersFromRedis(index, hashes, 9999), Projected(OrdersFromMysql(orders, 9999)));
  }

  lemma ProjectionsAgree(orders: map<int, Order>, hashes: map<int, CachedOrder>, index: set<int>, limit: nat)
    requires index == orders.Keys && hashes.Keys == orders.Keys
    requires forall id :: id in hashes ==> SameOrder(hashes[id], orders[id])
    requires OrdersKeyed(orders)
    ensures |OrdersFromRedis(index, hashes, limit)| == |OrdersFromMysql(orders, limit)|
    ensures forall i :: 0 <= i < |OrdersFromMysql(orders, limit)| ==>
      SameOrder(OrdersFromRedis(index, hashes, limit)[i], OrdersFromMysql(orders, limit)[i])
  {
    var fromLedger := OrdersFromMysql(orders, limit);
    var ids := NewestIds(orders.Keys, limit);
    if index == {} {
      assert |fromLedger| == 0 by {
        assert |orders.Keys| == |orders|;
      }
    } else {
      assert OrdersFromRedis(index, hashes, limit) == Present(ids, hashes) by {
        SameNewestIds(orders, index, limit);
      }
      assert |fromLedger| == |ids| by {
        assert |orders.Keys| == |orders|;
      }
      forall i | 0 <= i < |ids| ensures ids[i] in hashes && SameOrder(hashes[ids[i]], fromLedger[i]) {
        OrdersFromMysqlIds(orders, limit);
      }
      PresentProjects(ids, hashes, fromLedger);
    }
  }

  /** Reading hashes that agree with a list of orders, one per id, yields one agreeing hash per order. */
  lemma PresentProjects(ids: seq<int>, hashes: map<int, CachedOrder>, os: seq<Order>)
    requires |os| == |ids|
    requires forall i :: 0 <= i < |ids| ==> ids[i] in hashes && SameOrder(hashes[ids[i]], os[i])
    ensures |Present(ids, hashes)| == |os|
    ensures forall i :: 0 <= i < |os| ==> SameOrder(Present(ids, hashes)[i], os[i])
  {
    assert forall id :: id in ids ==> id in hashes;
    PresentAll(ids, hashes);
  }
}

=== FILE: ranking.dfy ===
/**
 * Ordering helpers the reports and the ledger query share: the ids of a set from
 * newest to oldest, Python's stable `sorted(..., reverse=True)` by a key, and the
 * prefixes taken by `[:n]` and SQL `LIMIT n`.
 */
module Ranking {

  predicate StrictlyDecreasing(s: seq<int>)
  {
    forall i, j :: 0 <= i < j < |s| ==> s[j] < s[i]
  }

  predicate NonIncreasing<T>(s: seq<T>, key: T -> real)
  {
    forall i, j :: 0 <= i < j < |s| ==> key(s[j]) <= key(s[i])
  }

  predicate NoDuplicates<T(==)>(s: seq<T>)
  {
    forall i, j :: 0 <= i < j < |s| ==> s[i] != s[j]
  }

  /** The first `n` elements, or all of them when there are fewer (SQL `LIMIT n`, Python `s[:n]` for n >= 0). */
  function Take<T>(s: seq<T>, n: nat): (r: seq<T>)
    ensures |r| == if |s| <= n then |s| else n
    ensures r == s[..|r|]
  {
    if |s| <= n then s else s[..n]
  }

  /** Python's `s[:n]` for any integer `n`: a negative `n` drops `-n` elements from the end. */
  function PyPrefix<T>(s: seq<T>, n: int): (r: seq<T>)
    ensures 0 <= n ==> r == Take(s, n)
    ensures n < 0 ==> |r| == (if |s| + n < 0 then 0 else |s| + n)
    ensures r == s[..|r|]
  {
    if 0 <= n then Take(s, n)
    else if |s| + n < 0 then []
    else s[..|s| + n]
  }

  lemma {:induction false} MaxExists(s: set<int>)
    requires s != {}
    ensures exists m :: m in s && forall x :: x in s ==> x <= m
    decreases s
  {
    assert (forall z :: z !in s) ==> s == {};
    var y :| y in s;
    var rest := s - {y};
    if rest == {} {
      forall x | x in s ensures x <= y {
        assert x !in rest;
      }
    } else {
      MaxExists(rest);
      var m :| m in rest && forall x :: x in rest ==> x <= m;
      var top := if m < y then y else m;
      forall x | x in s ensures x <= top {
        if x != y {
          assert x in rest;
        }
      }
      assert top in s;
    }
  }

  function MaxOf(s: set<int>): (m: int)
    requires s != {}
    ensures m in s && forall x :: x in s ==> x <= m
  {
    MaxExists(s);
    var m :| m in s && forall x :: x in s ==> x <= m; m
  }

  /** The elements of `s` from the largest to the smallest. */
  function DescendingIds(s: set<int>): (r: seq<int>)
    ensures StrictlyDecreasing(r)
    ensures |r| == |s|
    ensures forall x :: x in r <==> x in s
    decreases s
  {
    if s == {} then []
    else
      var m := MaxOf(s);
      var rest := DescendingIds(s - {m});
      assert forall x :: x in rest ==> x < m;
      [m] + rest
  }

  /** Two strictly decreasing sequences with the same elements are equal. */
  lemma {:induction false} DescendingUnique(a: seq<int>, b: seq<int>)
    requires StrictlyDecreasing(a) && StrictlyDecreasing(b)
    requires forall x :: x in a <==> x in b
    ensures a == b
  {
    assert a != [] ==> a[0] in a && a[0] in b;
    assert b != [] ==> b[0] in b && b[0] in a;
    if a != [] && b != [] {
      assert a[0] == b[0];
      forall x ensures x in a[1..] <==> x in b[1..] {
        if x in a[1..] {
          var k :| 1 <= k < |a| && a[k] == x;
          assert x < a[0];
          assert x in b;
        }
        if x in b[1..] {
          var k :| 1 <= k < |b| && b[k] == x;
          assert x < b[0];
          assert x in a;
        }
      }
      DescendingUnique(a[1..], b[1..]);
      assert a == [a[0]] + a[1..];
      assert b == [b[0]] + b[1..];
    }
  }

  /**
   * Places `x` in front of the first element whose key is not larger than its own,
   * so that `x` stays ahead of the elements with an equal key.
   */
  function InsertDesc<T>(x: T, s: seq<T>, key: T -> real): (r: seq<T>)
    ensures |r| == |s| + 1
  {
    if s == [] || key(s[0]) <= key(x) then [x] + s
    else [s[0]] + InsertDesc(x, s[1..], key)
  }

  /** Stable sort by `key`, largest first, as Python's `sorted(s, key=key, reverse=True)`. */
  function SortDesc<T>(s: seq<T>, key: T -> real): (r: seq<T>)
    ensures |r| == |s|
  {
    if s == [] then []
    else InsertDesc(s[0], SortDesc(s[1..], key), key)
  }

  /** The elements of `s` whose key is `k`, in their order in `s`. */
  function WithKey<T>(s: seq<T>, key: T -> real, k: real): seq<T>
  {
    if s == [] then []
    else (if key(s[0]) == k then [s[0]] else []) + WithKey(s[1..], key, k)
  }

  lemma {:induction false} InsertDescPermutes<T>(x: T, s: seq<T>, key: T -> real)
    ensures multiset(InsertDesc(x, s, key)) == multiset(s) + multiset{x}
  {
    if s != [] && key(x) < key(s[0]) {
      InsertDescPermutes(x, s[1..], key);
      assert s == [s[0]] + s[1..];
    }
  }

  lemma {:induction false} InsertDescOrdered<T>(x: T, s: seq<T>, key: T -> real)
    requires NonIncreasing(s, key)
    ensures NonIncreasing(InsertDesc(x, s, key), key)
    ensures InsertDesc(x, s, key)[0] == x || (s != [] && InsertDesc(x, s, key)[0] == s[0])
  {
    if s != [] && key(x) < key(s[0]) {
      InsertDescOrdered(x, s[1..], key);
      var t := InsertDesc(x, s[1..], key);
      var r := [s[0]] + t;
      assert key(t[0]) <= key(s[0]);
      forall i, j | 0 <= i < j < |r| ensures key(r[j]) <= key(r[i]) {
        assert r[j] == t[j - 1];
        if i == 0 {
          assert key(t[j - 1]) <= key(t[0]);
        } else {
          assert r[i] == t[i - 1];
        }
      }
    }
  }

  lemma {:induction false} InsertDescStable<T>(x: T, s: seq<T>, key: T -> real, k: real)
    ensures WithKey(InsertDesc(x, s, key), key, k) == (if key(x) == k then [x] else []) + WithKey(s, key, k)
  {
    if s == [] || key(s[0]) <= key(x) {
      assert ([x] + s)[1..] == s;
    } else {
      InsertDescStable(x, s[1..], key, k);
      var t := InsertDesc(x, s[1..], key);
      assert InsertDesc(x, s, key) == [s[0]] + t;
      assert ([s[0]] + t)[1..] == t;
      assert WithKey(s, key, k) == (if key(s[0]) == k then [s[0]] else []) + WithKey(s[1..], key, k);
      if key(x) == k {
        assert key(s[0]) != k;
      }
    }
  }

  /**
   * The stable descending sort returns a permutation of its input, ordered by key,
   * and keeps the relative order of the elements that share a key.
   */
  lemma SortDescFacts<T>(s: seq<T>, key: T -> real)
    ensures multiset(SortDesc(s, key)) == multiset(s)
    ensures |SortDesc(s, key)| == |s|
    ensures NonIncreasing(SortDesc(s, key), key)
    ensures forall k :: WithKey(SortDesc(s, key), key, k) == WithKey(s, key, k)
  {
    SortDescPermutes(s, key);
    SortDescOrdered(s, key);
    forall k ensures WithKey(SortDesc(s, key), key, k) == WithKey(s, key, k) {
      SortDescStable(s, key, k);
    }
  }

  lemma {:induction false} SortDescPermutes<T>(s: seq<T>, key: T -> real)
    ensures multiset(SortDesc(s, key)) == multiset(s)
  {
    if s != [] {
      SortDescPermutes(s[1..], key);
      InsertDescPermutes(s[0], SortDesc(s[1..], key), key);
      assert s == [s[0]] + s[1..];
    }
  }

  lemma {:induction false} SortDescOrdered<T>(s: seq<T>, key: T -> real)
    ensures NonIncreasing(SortDesc(s, key), key)
  {
    if s != [] {
      SortDescOrdered(s[1..], key);
      InsertDescOrdered(s[0], SortDesc(s[1..], key), key);
    }
  }

  lemma {:induction false} SortDescStable<T>(s: seq<T>, key: T -> real, k: real)
    ensures WithKey(SortDesc(s, key), key, k) == WithKey(s, key, k)
  {
    if s != [] {
      SortDescStable(s[1..], key, k);
      InsertDescStable(s[0], SortDesc(s[1..], key), key, k);
    }
  }

  /**
   * In a list ordered by key, an element that is not among the first `n` has at
   * least `n` elements ahead of it, none with a smaller key.
   */
  lemma OutsideTop<T>(s: seq<T>, key: T -> real, n: nat, x: T)
    requires NonIncreasing(s, key)
    requires x in s && x !in Take(s, n)
    ensures |Take(s, n)| == n
    ensures forall y :: y in Take(s, n) ==> key(x) <= key(y)
  {
    var t := Take(s, n);
    var k :| 0 <= k < |s| && s[k] == x;
    assert forall i :: 0 <= i < |t| ==> t[i] == s[i] && t[i] != x;
    assert |t| <= k;
    forall y | y in t ensures key(x) <= key(y) {
      var m :| 0 <= m < |t| && t[m] == y;
      assert s[m] == y;
    }
  }

  /** A permutation of a sequence without duplicates has none either. */
  lemma {:induction false} PermutationNoDuplicates<T>(s: seq<T>, r: seq<T>)
    requires multiset(s) == multiset(r)
    requires NoDuplicates(s)
    ensures NoDuplicates(r)
  {
    forall i, j | 0 <= i < j < |r| ensures r[i] != r[j] {
      if r[i] == r[j] {
        var x := r[i];
        assert r == r[..i] + [x] + r[i + 1..j] + [x] + r[j + 1..];
        assert multiset(r)[x] >= 2;
        MultiplicityAtMostOne(s, x);
      }
    }
  }

  lemma {:induction false} MultiplicityAtMostOne<T>(s: seq<T>, x: T)
    requires NoDuplicates(s)
    ensures multiset(s)[x] <= 1
  {
    if s != [] {
      assert s == [s[0]] + s[1..];
      assert NoDuplicates(s[1..]) by {
        forall i, j | 0 <= i < j < |s[1..]| ensures s[1..][i] != s[1..][j] {
          assert s[1..][i] == s[i + 1] && s[1..][j] == s[j + 1];
        }
      }
      MultiplicityAtMostOne(s[1..], x);
      if s[0] == x {
        forall k | 0 <= k < |s[1..]| ensures s[1..][k] != x {
          assert s[1..][k] == s[k + 1];
        }
      }
    }
  }
}

=== FILE: read_order.dfy ===
/**
 * The read side: orders read back from either store, and the two reports (highest
 * spending users, most sold products) computed from a snapshot of the cache.
 */
module ReadOrder {
  import opened Types
  import opened Ranking
  import opened CacheStore

  /** `HGETALL order:<id>`: the cached order, or nothing when that hash does not exist. */
  function GetOrderById(hashes: map<int, CachedOrder>, orderId: int): (r: Option<CachedOrder>)
    ensures r.Some? <==> orderId in hashes
    ensures r.Some? ==> r.value == hashes[orderId]
  {
    if orderId in hashes then Some(hashes[orderId]) else None
  }

  lemma NewestIdsFacts(all: seq<int>, limit: nat)
    requires StrictlyDecreasing(all)
    ensures forall x :: x in all && x !in Take(all, limit) ==> forall y :: y in Take(all, limit) ==> x < y
  {
    var r := Take(all, limit);
    forall x, y | x in all && x !in r && y in r ensures x < y {
      var k :| 0 <= k < |all| && all[k] == x;
      var m :| 0 <= m < |r| && r[m] == y;
      assert all[m] == y;
      assert forall i :: 0 <= i < |r| ==> r[i] == all[i] && r[i] != x;
      assert |r| <= k;
    }
  }

  /** The `limit` largest ids of `ids`, largest first. */
  function NewestIds(ids: set<int>, limit: nat): (r: seq<int>)
    ensures StrictlyDecreasing(r)
    ensures |r| == if |ids| <= limit then |ids| else limit
    ensures forall x :: x in r ==> x in ids
  {
    Take(DescendingIds(ids), limit)
  }

  /** Every id left out of the newest ids is smaller than each one kept, and none is left out when all fit. */
  lemma NewestIdsOmits(ids: set<int>, limit: nat)
    ensures forall x :: x in ids && x !in NewestIds(ids, limit) ==> forall y :: y in NewestIds(ids, limit) ==> x < y
    ensures |ids| <= limit ==> forall x :: x in ids ==> x in NewestIds(ids, limit)
  {
    NewestIdsFacts(DescendingIds(ids), limit);
  }

  /**
   * `get_orders_from_mysql(limit)`: the ledger orders ordered by id descending,
   * at most `limit` of them.
   */
  function OrdersFromMysql(orders: map<int, Order>, limit: nat): (r: seq<Order>)
    ensures |r| == if |orders| <= limit then |orders| else limit
    ensures forall i :: 0 <= i < |r| ==> r[i] in orders.Values
  {
    var ids := NewestIds(orders.Keys, limit);
    NewestIdsOfMap(orders, limit);
    seq(|ids|, i requires 0 <= i < |ids| => orders[ids[i]])
  }

  /** The newest ids of a map are keys of it, and there are min(size, limit) of them. */
  lemma NewestIdsOfMap<V>(m: map<int, V>, limit: nat)
    ensures |NewestIds(m.Keys, limit)| == if |m| <= limit then |m| else limit
    ensures forall i :: 0 <= i < |NewestIds(m.Keys, limit)| ==> NewestIds(m.Keys, limit)[i] in m
  {
    var ids := NewestIds(m.Keys, limit);
    assert |m.Keys| == |m|;
    forall i | 0 <= i < |ids| ensures ids[i] in m {
      assert ids[i] in ids;
    }
  }

  /** Entry `i` of the ledger listing is the order with the `i`-th newest id. */
  lemma OrdersFromMysqlIds(orders: map<int, Order>, limit: nat)
    requires OrdersKeyed(orders)
    ensures forall i :: 0 <= i < |OrdersFromMysql(orders, limit)| ==>
      var id := NewestIds(orders.Keys, limit)[i];
      id in orders && OrdersFromMysql(orders, limit)[i] == orders[id] && OrdersFromMysql(orders, limit)[i].id == id
  {
  }

  /** The ledger listing holds orders of the ledger, entry `i` the one with the `i`-th newest id. */
  lemma OrdersFromMysqlFacts(orders: map<int, Order>, limit: nat)
    requires OrdersKeyed(orders)
    ensures |OrdersFromMysql(orders, limit)| == |NewestIds(orders.Keys, limit)|
    ensures forall i :: 0 <= i < |OrdersFromMysql(orders, limit)| ==>
      OrdersFromMysql(orders, limit)[i].id == NewestIds(orders.Keys, limit)[i]
    ensures forall i :: 0 <= i < |OrdersFromMysql(orders, limit)| ==>
      var o := OrdersFromMysql(orders, limit)[i]; o.id in orders && orders[o.id] == o
  {
    NewestIdsOfMap(orders, limit);
    OrdersFromMysqlIds(orders, limit);
  }

  /** The ledger listing is newest first, and an order left out is older than every order listed. */
  lemma OrdersFromMysqlNewest(orders: map<int, Order>, limit: nat)
    requires OrdersKeyed(orders)
    ensures forall i, j :: 0 <= i < j < |OrdersFromMysql(orders, limit)| ==>
      OrdersFromMysql(orders, limit)[j].id < OrdersFromMysql(orders, limit)[i].id
    ensures forall id :: id in orders && (forall i :: 0 <= i < |OrdersFromMysql(orders, limit)| ==> OrdersFromMysql(orders, limit)[i].id != id) ==>
      forall i :: 0 <= i < |OrdersFromMysql(orders, limit)| ==> id < OrdersFromMysql(orders, limit)[i].id
  {
    var r := OrdersFromMysql(orders, limit);
    var ids := NewestIds(orders.Keys, limit);
    OrdersFromMysqlFacts(orders, limit);
    NewestIdsOmits(orders.Keys, limit);
    IdsFollowListing(r, ids, orders.Keys);
  }

  /**
   * Orders listed along a strictly decreasing id listing are newest first, and an id
   * of `all` left out of the listing is older than every order listed.
   */
  lemma IdsFollowListing(r: seq<Order>, ids: seq<int>, all: set<int>)
    requires |r| == |ids| && forall i :: 0 <= i < |r| ==> r[i].id == ids[i]
    requires StrictlyDecreasing(ids)
    requires forall x :: x in all && x !in ids ==> forall y :: y in ids ==> x < y
    ensures forall i, j :: 0 <= i < j < |r| ==> r[j].id < r[i].id
    ensures forall id :: id in all && (forall i :: 0 <= i < |r| ==> r[i].id != id) ==>
      forall i :: 0 <= i < |r| ==> id < r[i].id
  {
    forall id | id in all && (forall i :: 0 <= i < |r| ==> r[i].id != id)
      ensures forall i :: 0 <= i < |r| ==> id < r[i].id
    {
      assert id !in ids by {
        assert forall i :: 0 <= i < |ids| ==> ids[i] != id;
      }
      forall i | 0 <= i < |r| ensures id < r[i].id {
        assert ids[i] in ids;
      }
    }
  }

  /** The hashes of the ids that have one, in the order of `ids`; the others are skipped. */
  function Present(ids: seq<int>, hashes: map<int, CachedOrder>): (r: seq<CachedOrder>)
    ensures |r| <= |ids|
    ensures forall id :: id in ids && id in hashes ==> hashes[id] in r
  {
    if ids == [] then []
    else
      var init, last := ids[..|ids| - 1], ids[|ids| - 1];
      assert ids == init + [last];
      Present(init, hashes) + (if last in hashes then [hashes[last]] else [])
  }

  /**
   * When every hash carries its own id, each order read is the hash of one of the ids;
   * when the ids decrease, so do the ids of the orders read.
   */
  lemma {:induction false} PresentFacts(ids: seq<int>, hashes: map<int, CachedOrder>)
    requires HashesKeyed(hashes)
    ensures forall i :: 0 <= i < |Present(ids, hashes)| ==>
      var o := Present(ids, hashes)[i]; o.id in ids && o.id in hashes && hashes[o.id] == o
    ensures StrictlyDecreasing(ids) ==>
      forall i, j :: 0 <= i < j < |Present(ids, hashes)| ==> Present(ids, hashes)[j].id < Present(ids, hashes)[i].id
  {
    if ids != [] {
      var init, last := ids[..|ids| - 1], ids[|ids| - 1];
      assert ids == init + [last];
      PresentFacts(init, hashes);
      var front := Present(init, hashes);
      assert Present(ids, hashes) == front + (if last in hashes then [hashes[last]] else []);
      assert forall x :: x in init ==> x in ids;
      if StrictlyDecreasing(ids) {
        assert StrictlyDecreasing(init);
        assert forall x :: x in init ==> last < x;
      }
    }
  }

  /**
   * `get_orders_from_redis(limit)`: the members of the `orders` set sorted by id
   * descending and cut with Python's `[:limit]`, each replaced by its hash; an id
   * whose hash is missing is skipped.
   */
  function OrdersFromRedis(index: set<int>, hashes: map<int, CachedOrder>, limit: int): (r: seq<CachedOrder>)
    ensures index == {} ==> r == []
    ensures |r| <= |index|
    ensures 0 <= limit ==> |r| <= limit
    ensures HashesKeyed(hashes) ==>
      forall i :: 0 <= i < |r| ==> r[i].id in index && r[i].id in hashes && hashes[r[i].id] == r[i]
    ensures HashesKeyed(hashes) ==> forall i, j :: 0 <= i < j < |r| ==> r[j].id < r[i].id
    ensures |index| <= limit ==> forall id :: id in index && id in hashes ==> hashes[id] in r
    ensures forall id :: id in PyPrefix(DescendingIds(index), limit) && id in hashes ==> hashes[id] in r
    ensures HashesKeyed(hashes) ==>
      forall id :: id in index && id in hashes && (forall i :: 0 <= i < |r| ==> r[i].id != id) ==>
        forall i :: 0 <= i < |r| ==> id < r[i].id
  {
    if index == {} then []
    else
      var ids := PyPrefix(DescendingIds(index), limit);
      IndexPrefixOmits(index, limit);
      if HashesKeyed(hashes) then PresentFacts(ids, hashes); PresentOmits(ids, hashes, index); Present(ids, hashes)
      else Present(ids, hashes)
  }

  /** The index's ids cut by `[:limit]` decrease, come from the index, and an id cut off is older than each one kept. */
  lemma IndexPrefixOmits(index: set<int>, limit: int)
    ensures StrictlyDecreasing(PyPrefix(DescendingIds(index), limit))
    ensures forall x :: x in PyPrefix(DescendingIds(index), limit) ==> x in index
    ensures forall x :: x in index && x !in PyPrefix(DescendingIds(index), limit) ==>
      forall y :: y in PyPrefix(DescendingIds(index), limit) ==> x < y
  {
    var all := DescendingIds(index);
    var ids := PyPrefix(all, limit);
    assert Take(all, |ids|) == ids;
    NewestIdsFacts(all, |ids|);
  }

  /**
   * Reading the hashes of ids that are newer than every other id of `all`: an id of
   * `all` whose hash exists but was not read is older than every order read.
   */
  lemma PresentOmits(ids: seq<int>, hashes: map<int, CachedOrder>, all: set<int>)
    requires HashesKeyed(hashes)
    requires forall x :: x in all && x !in ids ==> forall y :: y in ids ==> x < y
    ensures forall id :: id in all && id in hashes && (forall i :: 0 <= i < |Present(ids, hashes)| ==> Present(ids, hashes)[i].id != id) ==>
      forall i :: 0 <= i < |Present(ids, hashes)| ==> id < Present(ids, hashes)[i].id
  {
    var r := Present(ids, hashes);
    PresentFacts(ids, hashes);
    forall id | id in all && id in hashes && (forall i :: 0 <= i < |r| ==> r[i].id != id)
      ensures forall i :: 0 <= i < |r| ==> id < r[i].id
    {
      assert id !in ids;
      forall i | 0 <= i < |r| ensures id < r[i].id {
        assert r[i].id in ids;
      }
    }
  }

  function IdKey(id: int): real
  {
    id as real
  }

  /** A stable descending sort of distinct ids lists them from the largest to the smallest. */
  lemma SortedIdsAreDescending(decoded: seq<int>, ids: set<int>)
    requires NoDuplicates(decoded)
    requires forall x :: x in decoded <==> x in ids
    ensures SortDesc(decoded, IdKey) == DescendingIds(ids)
  {
    var sorted := SortDesc(decoded, IdKey);
    SortDescFacts(decoded, IdKey);
    PermutationNoDuplicates(decoded, sorted);
    forall i, j | 0 <= i < j < |sorted| ensures sorted[j] < sorted[i] {
      assert IdKey(sorted[j]) <= IdKey(sorted[i]);
    }
    forall x ensures x in sorted <==> x in ids {
      assert x in sorted <==> x in multiset(sorted);
      assert x in decoded <==> x in multiset(decoded);
    }
    DescendingUnique(sorted, DescendingIds(ids));
  }

  /** `SMEMBERS orders` decoded to ids: every member once, in the order the set yields them. */
  method CollectMembers(members: set<int>) returns (decoded: seq<int>)
    ensures NoDuplicates(decoded)
    ensures forall x :: x in decoded <==> x in members
  {
    decoded := [];
    var rest := members;
    while rest != {}
      invariant rest <= members
      invariant NoDuplicates(decoded)
      invariant forall x :: x in decoded <==> x in members && x !in rest
      decreases rest
    {
      assert (forall z :: z !in rest) ==> rest == {};
      var x :| x in rest;
      decoded := decoded + [x];
      rest := rest - {x};
    }
  }

  /** One `HGETALL` per id, keeping the hashes that exist. */
  method ReadHashes(ids: seq<int>, hashes: map<int, CachedOrder>) returns (orders: seq<CachedOrder>)
    ensures orders == Present(ids, hashes)
  {
    orders := [];
    var k := 0;
    while k < |ids|
      invariant 0 <= k <= |ids|
      invariant orders == Present(ids[..k], hashes)
    {
      assert ids[..k + 1][..k] == ids[..k];
      if ids[k] in hashes {
        orders := orders + [hashes[ids[k]]];
      }
      k := k + 1;
    }
    assert ids[..|ids|] == ids;
  }

  /**
   * `get_orders_from_redis(limit)` as the source runs it: collect the members of the
   * index set, sort them, cut the list, then read each hash.
   */
  method GetOrdersFromRedis(cache: Cache, limit: int) returns (orders: seq<CachedOrder>)
    ensures orders == OrdersFromRedis(cache.index, cache.hashes, limit)
  {
    var members := cache.index;
    if members == {} {
      return [];
    }
    var decoded := CollectMembers(members);
    SortedIdsAreDescending(decoded, members);
    var ids := PyPrefix(SortDesc(decoded, IdKey), limit);
    orders := ReadHashes(ids, cache.hashes);
  }

  // ---------------------------------------------------------------------------
  // Highest spending users
  // ---------------------------------------------------------------------------

  /** One item of `expenses_by_user`: a user and the running sum of their order totals. */
  datatype Expense = Expense(userId: int, total: real)

  /** One row of the spending report. */
  datatype SpenderEntry = SpenderEntry(rank: nat, userId: int, totalSpent: real, orderCount: nat)

  /** The sum of `total_amount` over the orders of user `u`. */
  function SpentBy(orders: seq<CachedOrder>, u: int): real
  {
    if orders == [] then 0.0
    else
      var last := orders[|orders| - 1];
      SpentBy(orders[..|orders| - 1], u) + (if last.userId == u then last.totalAmount else 0.0)
  }

  /** How many of the orders belong to user `u`. */
  function OrderCount(orders: seq<CachedOrder>, u: int): nat
  {
    if orders == [] then 0
    else
      var last := orders[|orders| - 1];
      OrderCount(orders[..|orders| - 1], u) + (if last.userId == u then 1 else 0)
  }

  /**
   * `expenses_by_user[user_id] += amount` on an insertion-ordered mapping: the
   * user's entry is updated where it stands, or appended when it is new.
   */
  function AddExpense(expenses: seq<Expense>, userId: int, amount: real): (r: seq<Expense>)
    ensures r != []
    ensures |expenses| <= |r| <= |expenses| + 1
  {
    if expenses == [] then [Expense(userId, amount)]
    else if expenses[0].userId == userId then [Expense(userId, expenses[0].total + amount)] + expenses[1..]
    else [expenses[0]] + AddExpense(expenses[1..], userId, amount)
  }

  /** The `expenses_by_user` mapping after the loop over `orders`, in insertion order. */
  function Expenses(orders: seq<CachedOrder>): (r: seq<Expense>)
    ensures |r| <= |orders|
    ensures r == [] <==> orders == []
  {
    if orders == [] then []
    else
      var last := orders[|orders| - 1];
      AddExpense(Expenses(orders[..|orders| - 1]), last.userId, last.totalAmount)
  }

  predicate UsersDistinct(expenses: seq<Expense>)
  {
    forall i, j :: 0 <= i < j < |expenses| ==> expenses[i].userId != expenses[j].userId
  }

  predicate HasUser(expenses: seq<Expense>, u: int)
  {
    exists i :: 0 <= i < |expenses| && expenses[i].userId == u
  }

  /** The total recorded for user `u`, 0 when the user has no entry. */
  function TotalOf(expenses: seq<Expense>, u: int): real
  {
    if expenses == [] then 0.0
    else if expenses[0].userId == u then expenses[0].total
    else TotalOf(expenses[1..], u)
  }

  lemma {:induction false} TotalOfAt(expenses: seq<Expense>, i: int)
    requires UsersDistinct(expenses) && 0 <= i < |expenses|
    ensures TotalOf(expenses, expenses[i].userId) == expenses[i].total
  {
    if i > 0 {
      assert expenses[0].userId != expenses[i].userId;
      assert expenses[1..][i - 1] == expenses[i];
      TotalOfAt(expenses[1..], i - 1);
    }
  }

  /**
   * Adding an amount for user `u` keeps the users distinct, adds `u` when it is new,
   * and raises `u`'s total by the amount, leaving every other user's total alone.
   */
  lemma AddExpenseFacts(expenses: seq<Expense>, u: int, amount: real)
    requires UsersDistinct(expenses)
    ensures UsersDistinct(AddExpense(expenses, u, amount))
    ensures forall v :: HasUser(AddExpense(expenses, u, amount), v) <==> HasUser(expenses, v) || v == u
    ensures forall v :: TotalOf(AddExpense(expenses, u, amount), v) == TotalOf(expenses, v) + (if v == u then amount else 0.0)
  {
    AddExpenseDistinct(expenses, u, amount);
    AddExpenseUsers(expenses, u, amount);
    AddExpenseTotals(expenses, u, amount);
  }

  lemma {:induction false} AddExpenseUsers(expenses: seq<Expense>, u: int, amount: real)
    ensures forall v :: HasUser(AddExpense(expenses, u, amount), v) <==> HasUser(expenses, v) || v == u
  {
    var r := AddExpense(expenses, u, amount);
    if expenses == [] {
      assert r[0].userId == u;
    } else if expenses[0].userId == u {
      assert r[1..] == expenses[1..];
      forall v ensures HasUser(r, v) <==> HasUser(expenses, v) || v == u {
        if HasUser(expenses, v) {
          var i :| 0 <= i < |expenses| && expenses[i].userId == v;
          assert r[i].userId == v;
        }
        if HasUser(r, v) {
          var i :| 0 <= i < |r| && r[i].userId == v;
          assert expenses[i].userId == v;
        }
      }
    } else {
      var tail := expenses[1..];
      AddExpenseUsers(tail, u, amount);
      var t := AddExpense(tail, u, amount);
      assert r == [expenses[0]] + t;
      forall v ensures HasUser(r, v) <==> HasUser(expenses, v) || v == u {
        if v == expenses[0].userId {
          assert r[0].userId == v && expenses[0].userId == v;
        } else {
          if HasUser(t, v) {
            var k :| 0 <= k < |t| && t[k].userId == v;
            assert r[k + 1].userId == v;
          }
          if HasUser(r, v) {
            var i :| 0 <= i < |r| && r[i].userId == v;
            assert 0 < i && t[i - 1].userId == v;
          }
          if HasUser(tail, v) {
            var k :| 0 <= k < |tail| && tail[k].userId == v;
            assert expenses[k + 1].userId == v;
          }
          if HasUser(expenses, v) {
            var i :| 0 <= i < |expenses| && expenses[i].userId == v;
            assert 0 < i && tail[i - 1].userId == v;
          }
        }
      }
    }
  }

  lemma {:induction false} AddExpenseDistinct(expenses: seq<Expense>, u: int, amount: real)
    requires UsersDistinct(expenses)
    ensures UsersDistinct(AddExpense(expenses, u, amount))
  {
    var r := AddExpense(expenses, u, amount);
    if expenses != [] && expenses[0].userId == u {
      forall i, j | 0 <= i < j < |r| ensures r[i].userId != r[j].userId {
        assert r[j] == expenses[j];
        assert i > 0 ==> r[i] == expenses[i];
      }
    } else if expenses != [] {
      var tail := expenses[1..];
      assert UsersDistinct(tail) by {
        forall i, j | 0 <= i < j < |tail| ensures tail[i].userId != tail[j].userId {
          assert tail[i] == expenses[i + 1] && tail[j] == expenses[j + 1];
        }
      }
      AddExpenseDistinct(tail, u, amount);
      AddExpenseUsers(tail, u, amount);
      var t := AddExpense(tail, u, amount);
      assert r == [expenses[0]] + t;
      assert !HasUser(tail, expenses[0].userId) by {
        forall i | 0 <= i < |tail| ensures tail[i].userId != expenses[0].userId {
          assert tail[i] == expenses[i + 1];
        }
      }
      forall i, j | 0 <= i < j < |r| ensures r[i].userId != r[j].userId {
        assert r[j] == t[j - 1];
        if i == 0 {
          assert HasUser(t, t[j - 1].userId);
        } else {
          assert r[i] == t[i - 1];
        }
      }
    }
  }

  lemma {:induction false} AddExpenseTotals(expenses: seq<Expense>, u: int, amount: real)
    ensures forall v :: TotalOf(AddExpense(expenses, u, amount), v) == TotalOf(expenses, v) + (if v == u then amount else 0.0)
  {
    if expenses != [] && expenses[0].userId != u {
      AddExpenseTotals(expenses[1..], u, amount);
      var t := AddExpense(expenses[1..], u, amount);
      assert AddExpense(expenses, u, amount) == [expenses[0]] + t;
      assert ([expenses[0]] + t)[1..] == t;
    }
  }

  /**
   * The insertion-ordered mapping has one entry per user that has an order, and
   * each entry holds the sum of that user's order totals.
   */
  lemma {:induction false} ExpensesFacts(orders: seq<CachedOrder>)
    ensures UsersDistinct(Expenses(orders))
    ensures forall u :: HasUser(Expenses(orders), u) <==> OrderCount(orders, u) > 0
    ensures forall u :: TotalOf(Expenses(orders), u) == SpentBy(orders, u)
  {
    if orders != [] {
      var last := orders[|orders| - 1];
      ExpensesFacts(orders[..|orders| - 1]);
      AddExpenseFacts(Expenses(orders[..|orders| - 1]), last.userId, last.totalAmount);
    }
  }

  function SpentKey(e: Expense): real
  {
    e.total
  }

  /**
   * `get_highest_spending_users` over the orders read from the cache: totals grouped
   * by user, sorted by total descending, the first ten ranked from 1.
   */
  function SpendingReport(orders: seq<CachedOrder>): (r: seq<SpenderEntry>)
    ensures |r| <= 10
    ensures r == [] <==> orders == []
  {
    if orders == [] then []
    else
      var top := Take(SortDesc(Expenses(orders), SpentKey), 10);
      seq(|top|, i requires 0 <= i < |top| =>
        SpenderEntry(i + 1, top[i].userId, top[i].total, OrderCount(orders, top[i].userId)))
  }

  /** The spending report of the orders the cache holds. */
  function HighestSpendingUsers(index: set<int>, hashes: map<int, CachedOrder>): (r: seq<SpenderEntry>)
    ensures |r| <= 10
    ensures index == {} ==> r == []
    ensures (exists id :: id in index && id in hashes) && |index| <= 9999 ==> r != []
    ensures (exists id :: id in PyPrefix(DescendingIds(index), 9999) && id in hashes) ==> r != []
  {
    SpendingReport(OrdersFromRedis(index, hashes, 9999))
  }

  /** Two order lists with the same user and total at every position; ids and timestamps may differ. */
  predicate SameSpenders(a: seq<CachedOrder>, b: seq<CachedOrder>)
  {
    |a| == |b| && forall i :: 0 <= i < |a| ==> a[i].userId == b[i].userId && a[i].totalAmount == b[i].totalAmount
  }

  lemma {:induction false} SameSpendersPrefix(a: seq<CachedOrder>, b: seq<CachedOrder>)
    requires SameSpenders(a, b) && a != []
    ensures SameSpenders(a[..|a| - 1], b[..|b| - 1])
  {
    var n := |a| - 1;
    forall i | 0 <= i < n ensures a[..n][i].userId == b[..n][i].userId && a[..n][i].totalAmount == b[..n][i].totalAmount {
      assert a[..n][i] == a[i] && b[..n][i] == b[i];
    }
  }

  /** The spending report reads only each order's user and total. */
  lemma SpendingReportBySpenders(a: seq<CachedOrder>, b: seq<CachedOrder>)
    requires SameSpenders(a, b)
    ensures SpendingReport(a) == SpendingReport(b)
  {
    ExpensesBySpenders(a, b);
    forall u ensures OrderCount(a, u) == OrderCount(b, u) {
      OrderCountBySpenders(a, b, u);
    }
  }

  lemma {:induction false} ExpensesBySpenders(a: seq<CachedOrder>, b: seq<CachedOrder>)
    requires SameSpenders(a, b)
    ensures Expenses(a) == Expenses(b)
  {
    if a != [] {
      SameSpendersPrefix(a, b);
      ExpensesBySpenders(a[..|a| - 1], b[..|b| - 1]);
    }
  }

  lemma {:induction false} OrderCountBySpenders(a: seq<CachedOrder>, b: seq<CachedOrder>, u: int)
    requires SameSpenders(a, b)
    ensures OrderCount(a, u) == OrderCount(b, u)
  {
    if a != [] {
      SameSpendersPrefix(a, b);
      OrderCountBySpenders(a[..|a| - 1], b[..|b| - 1], u);
    }
  }

  /**
   * The expenses sorted by total: ordered, one entry per user, each entry the user's
   * total, and every user with an order present.
   */
  lemma {:induction false} SortedExpensesFacts(orders: seq<CachedOrder>)
    ensures NonIncreasing(SortDesc(Expenses(orders), SpentKey), SpentKey)
    ensures UsersDistinct(SortDesc(Expenses(orders), SpentKey))
    ensures forall i :: 0 <= i < |SortDesc(Expenses(orders), SpentKey)| ==>
      var x := SortDesc(Expenses(orders), SpentKey)[i];
      x.total == SpentBy(orders, x.userId) && OrderCount(orders, x.userId) > 0
    ensures forall u :: OrderCount(orders, u) > 0 ==> HasUser(SortDesc(Expenses(orders), SpentKey), u)
  {
    var expenses := Expenses(orders);
    var sorted := SortDesc(expenses, SpentKey);
    ExpensesFacts(orders);
    SortDescFacts(expenses, SpentKey);
    forall i | 0 <= i < |sorted|
      ensures exists k :: 0 <= k < |expenses| && expenses[k] == sorted[i]
    {
      assert sorted[i] in multiset(sorted);
      assert sorted[i] in expenses;
    }
    forall i | 0 <= i < |sorted|
      ensures sorted[i].total == SpentBy(orders, sorted[i].userId) && OrderCount(orders, sorted[i].userId) > 0
    {
      var k :| 0 <= k < |expenses| && expenses[k] == sorted[i];
      TotalOfAt(expenses, k);
    }
    forall i, j | 0 <= i < j < |sorted| ensures sorted[i].userId != sorted[j].userId {
      var a :| 0 <= a < |expenses| && expenses[a] == sorted[i];
      var b :| 0 <= b < |expenses| && expenses[b] == sorted[j];
      assert a != b ==> expenses[a].userId != expenses[b].userId;
      assert NoDuplicates(expenses) by {
        forall i', j' | 0 <= i' < j' < |expenses| ensures expenses[i'] != expenses[j'] {
          assert expenses[i'].userId != expenses[j'].userId;
        }
      }
      PermutationNoDuplicates(expenses, sorted);
    }
    forall u | OrderCount(orders, u) > 0 ensures HasUser(sorted, u) {
      var k :| 0 <= k < |expenses| && expenses[k].userId == u;
      assert expenses[k] in multiset(expenses);
      assert expenses[k] in sorted;
    }
  }

  /**
   * The spending report: empty when no order is cached; otherwise at most ten rows
   * ranked 1, 2, 3, ..., one per user, ordered by total spent, each holding the
   * user's total and order count.
   */
  lemma SpendingReportFacts(orders: seq<CachedOrder>)
    ensures orders == [] ==> SpendingReport(orders) == []
    ensures |SpendingReport(orders)| <= 10
    ensures forall i :: 0 <= i < |SpendingReport(orders)| ==> SpendingReport(orders)[i].rank == i + 1
    ensures forall i :: 0 <= i < |SpendingReport(orders)| ==>
      var e := SpendingReport(orders)[i];
      e.totalSpent == SpentBy(orders, e.userId) && e.orderCount == OrderCount(orders, e.userId) && e.orderCount > 0
    ensures forall i, j :: 0 <= i < j < |SpendingReport(orders)| ==>
      SpendingReport(orders)[j].totalSpent <= SpendingReport(orders)[i].totalSpent
    ensures forall i, j :: 0 <= i < j < |SpendingReport(orders)| ==>
      SpendingReport(orders)[i].userId != SpendingReport(orders)[j].userId
  {
    if orders != [] {
      var r := SpendingReport(orders);
      var sorted := SortDesc(Expenses(orders), SpentKey);
      SpendingReportRows(orders);
      assert forall i :: 0 <= i < |r| ==> r[i].rank == i + 1;
      forall i | 0 <= i < |r|
        ensures r[i].totalSpent == SpentBy(orders, r[i].userId) && r[i].orderCount == OrderCount(orders, r[i].userId)
        ensures r[i].orderCount > 0
      {
        SortedExpensesFacts(orders);
      }
      forall i, j | 0 <= i < j < |r| ensures r[j].totalSpent <= r[i].totalSpent {
        SortedExpensesFacts(orders);
        assert SpentKey(sorted[j]) <= SpentKey(sorted[i]);
      }
      forall i, j | 0 <= i < j < |r| ensures r[i].userId != r[j].userId {
        SortedExpensesFacts(orders);
      }
    }
  }

  /** Each row of a non-empty spending report is the ranked entry of the sorted expense at its position. */
  lemma SpendingReportRows(orders: seq<CachedOrder>)
    requires orders != []
    ensures |SpendingReport(orders)| <= 10
    ensures |SpendingReport(orders)| <= |SortDesc(Expenses(orders), SpentKey)|
    ensures forall i :: 0 <= i < |SpendingReport(orders)| ==>
      var x := SortDesc(Expenses(orders), SpentKey)[i];
      SpendingReport(orders)[i] == SpenderEntry(i + 1, x.userId, x.total, OrderCount(orders, x.userId))
  {
  }

  /** A user with an order who is not in the spending report spent no more than the tenth user listed. */
  lemma SpendingReportOmits(orders: seq<CachedOrder>, u: int)
    requires OrderCount(orders, u) > 0
    requires forall i :: 0 <= i < |SpendingReport(orders)| ==> SpendingReport(orders)[i].userId != u
    ensures |SpendingReport(orders)| == 10
    ensures SpentBy(orders, u) <= SpendingReport(orders)[9].totalSpent
  {
    var r := SpendingReport(orders);
    var sorted := SortDesc(Expenses(orders), SpentKey);
    var top := Take(sorted, 10);
    SortedExpensesFacts(orders);
    var k :| 0 <= k < |sorted| && sorted[k].userId == u;
    var x := sorted[k];
    assert orders != [];
    assert forall i :: 0 <= i < |top| ==> r[i].userId == top[i].userId && top[i] != x;
    OutsideTop(sorted, SpentKey, 10, x);
    assert top[9] in top;
    assert r[9].totalSpent == top[9].total;
  }

  // ---------------------------------------------------------------------------
  // Most sold products
  // ---------------------------------------------------------------------------

  /** One entry of `product_sales` before it is ranked. */
  datatype ProductSale = ProductSale(productId: int, productName: string, quantitySold: int, price: real, totalRevenue: real)

  /** One row of the best-sellers report. */
  datatype ProductEntry = ProductEntry(rank: nat, productId: int, productName: string, quantitySold: int, price: real, totalRevenue: real)

  /** A counter enters the report when it is positive and its product is in the catalogue. */
  predicate Eligible(p: int, counters: map<int, int>, catalogue: map<int, Product>)
  {
    Count(counters, p) > 0 && p in catalogue
  }

  /** The entry of product `p`, valued at its current catalogue price. */
  function SaleOf(p: int, counters: map<int, int>, catalogue: map<int, Product>): (r: ProductSale)
    requires p in catalogue
  {
    var q := Count(counters, p);
    ProductSale(p, catalogue[p].name, q, catalogue[p].price, q as real * catalogue[p].price)
  }

  /** The `product_sales` list built by the loop over the counter keys, in key order. */
  function SalesRows(keys: seq<int>, counters: map<int, int>, catalogue: map<int, Product>): (r: seq<ProductSale>)
    ensures |r| <= |keys|
  {
    if keys == [] then []
    else
      var before := SalesRows(keys[..|keys| - 1], counters, catalogue);
      var p := keys[|keys| - 1];
      if Eligible(p, counters, catalogue) then before + [SaleOf(p, counters, catalogue)] else before
  }

  /**
   * The list holds exactly the eligible products among the keys, each valued at the
   * current catalogue price, and no product twice when no key repeats.
   */
  lemma {:induction false} SalesRowsFacts(keys: seq<int>, counters: map<int, int>, catalogue: map<int, Product>)
    ensures forall s :: s in SalesRows(keys, counters, catalogue) ==>
      s.productId in keys && Eligible(s.productId, counters, catalogue) && s == SaleOf(s.productId, counters, catalogue)
    ensures forall p :: p in keys && Eligible(p, counters, catalogue) ==> SaleOf(p, counters, catalogue) in SalesRows(keys, counters, catalogue)
    ensures NoDuplicates(keys) ==> NoDuplicates(SalesRows(keys, counters, catalogue))
  {
    if keys != [] {
      var init, p := keys[..|keys| - 1], keys[|keys| - 1];
      assert keys == init + [p];
      SalesRowsFacts(init, counters, catalogue);
      var before := SalesRows(init, counters, catalogue);
      if NoDuplicates(keys) {
        assert NoDuplicates(init) by {
          forall i, j | 0 <= i < j < |init| ensures init[i] != init[j] {
            assert init[i] == keys[i] && init[j] == keys[j];
          }
        }
        assert p !in init by {
          forall i | 0 <= i < |init| ensures init[i] != p {
            assert init[i] == keys[i];
          }
        }
        if Eligible(p, counters, catalogue) {
          var r := before + [SaleOf(p, counters, catalogue)];
          forall i, j | 0 <= i < j < |r| ensures r[i] != r[j] {
            if j == |r| - 1 {
              assert r[i] in before;
            }
          }
        }
      }
    }
  }

  function SoldKey(s: ProductSale): real
  {
    s.quantitySold as real
  }

  function Ranked(rank: nat, s: ProductSale): ProductEntry
  {
    ProductEntry(rank, s.productId, s.productName, s.quantitySold, s.price, s.totalRevenue)
  }

  /** `enumerate(product_sales, 1)`: each sale with its rank, from 1. */
  function RankAll(sorted: seq<ProductSale>): (r: seq<ProductEntry>)
    ensures |r| == |sorted| && forall i :: 0 <= i < |sorted| ==> r[i] == Ranked(i + 1, sorted[i])
  {
    seq(|sorted|, i requires 0 <= i < |sorted| => Ranked(i + 1, sorted[i]))
  }

  /**
   * `get_most_sold_products`: the positive counters of catalogue products, sorted by
   * quantity sold descending, ranked from 1 and cut to the first ten. `keys` is the
   * order in which the cache lists the counter keys.
   */
  function MostSoldProducts(keys: seq<int>, counters: map<int, int>, catalogue: map<int, Product>): (r: seq<ProductEntry>)
    ensures |r| <= 10
  {
    if keys == [] then []
    else
      var sorted := SortDesc(SalesRows(keys, counters, catalogue), SoldKey);
      Take(RankAll(sorted), 10)
  }

  /** The eligible sales sorted by quantity: ordered, each an eligible product, all of them present. */
  lemma SortedSalesFacts(keys: seq<int>, counters: map<int, int>, catalogue: map<int, Product>)
    ensures NonIncreasing(SortDesc(SalesRows(keys, counters, catalogue), SoldKey), SoldKey)
    ensures forall i :: 0 <= i < |SortDesc(SalesRows(keys, counters, catalogue), SoldKey)| ==>
      var x := SortDesc(SalesRows(keys, counters, catalogue), SoldKey)[i];
      x.productId in keys && Eligible(x.productId, counters, catalogue) && x == SaleOf(x.productId, counters, catalogue)
    ensures forall p :: p in keys && Eligible(p, counters, catalogue) ==>
      SaleOf(p, counters, catalogue) in SortDesc(SalesRows(keys, counters, catalogue), SoldKey)
    ensures NoDuplicates(keys) ==> NoDuplicates(SortDesc(SalesRows(keys, counters, catalogue), SoldKey))
  {
    var rows := SalesRows(keys, counters, catalogue);
    var sorted := SortDesc(rows, SoldKey);
    SalesRowsFacts(keys, counters, catalogue);
    SortDescFacts(rows, SoldKey);
    forall i | 0 <= i < |sorted| ensures sorted[i] in rows {
      assert sorted[i] in multiset(sorted);
    }
    forall p | p in keys && Eligible(p, counters, catalogue) ensures SaleOf(p, counters, catalogue) in sorted {
      assert SaleOf(p, counters, catalogue) in multiset(rows);
    }
    if NoDuplicates(keys) {
      PermutationNoDuplicates(rows, sorted);
    }
  }

  /** Row `i` of the sorted list is the sale of an eligible product among the keys. */
  lemma SortedSaleAt(keys: seq<int>, counters: map<int, int>, catalogue: map<int, Product>, i: int)
    requires 0 <= i < |SortDesc(SalesRows(keys, counters, catalogue), SoldKey)|
    ensures var x := SortDesc(SalesRows(keys, counters, catalogue), SoldKey)[i];
      x.productId in keys && Eligible(x.productId, counters, catalogue) && x == SaleOf(x.productId, counters, catalogue)
  {
    SortedSalesFacts(keys, counters, catalogue);
  }

  /** A ranked sale of product `p` reports `p`'s counter, catalogue name and price, and their product as revenue. */
  lemma RankedSale(e: ProductEntry, rank: nat, x: ProductSale, counters: map<int, int>, catalogue: map<int, Product>)
    requires x.productId in catalogue && x == SaleOf(x.productId, counters, catalogue)
    requires e == Ranked(rank, x)
    ensures e.rank == rank && e.productId == x.productId
    ensures e.quantitySold == Count(counters, e.productId)
    ensures e.productName == catalogue[e.productId].name && e.price == catalogue[e.productId].price
    ensures e.totalRevenue == e.quantitySold as real * e.price
  {
  }

  /** Row `i` of the best-sellers report is row `i` of the sorted sales, ranked `i + 1`. */
  lemma MostSoldProductsRows(keys: seq<int>, counters: map<int, int>, catalogue: map<int, Product>)
    requires keys != []
    ensures |MostSoldProducts(keys, counters, catalogue)| <= 10
    ensures |MostSoldProducts(keys, counters, catalogue)| <= |SortDesc(SalesRows(keys, counters, catalogue), SoldKey)|
    ensures forall i :: 0 <= i < |MostSoldProducts(keys, counters, catalogue)| ==>
      MostSoldProducts(keys, counters, catalogue)[i] == Ranked(i + 1, SortDesc(SalesRows(keys, counters, catalogue), SoldKey)[i])
  {
    var sorted := SortDesc(SalesRows(keys, counters, catalogue), SoldKey);
    assert MostSoldProducts(keys, counters, catalogue) == Take(RankAll(sorted), 10);
  }

  /**
   * The best-sellers report: at most ten rows ranked 1, 2, 3, ..., ordered by quantity
   * sold; each a product with a positive counter that the catalogue holds, its revenue
   * the quantity times the current price.
   */
  lemma MostSoldProductsFacts(keys: seq<int>, counters: map<int, int>, catalogue: map<int, Product>)
    ensures keys == [] ==> MostSoldProducts(keys, counters, catalogue) == []
    ensures |MostSoldProducts(keys, counters, catalogue)| <= 10
    ensures forall i :: 0 <= i < |MostSoldProducts(keys, counters, catalogue)| ==>
      MostSoldProducts(keys, counters, catalogue)[i].rank == i + 1
    ensures forall i :: 0 <= i < |MostSoldProducts(keys, counters, catalogue)| ==>
      var e := MostSoldProducts(keys, counters, catalogue)[i];
      && e.productId in keys && e.productId in catalogue
      && e.quantitySold == Count(counters, e.productId) && e.quantitySold > 0
      && e.productName == catalogue[e.productId].name && e.price == catalogue[e.productId].price
      && e.totalRevenue == e.quantitySold as real * e.price
    ensures forall i, j :: 0 <= i < j < |MostSoldProducts(keys, counters, catalogue)| ==>
      MostSoldProducts(keys, counters, catalogue)[j].quantitySold <= MostSoldProducts(keys, counters, catalogue)[i].quantitySold
  {
    if keys != [] {
      MostSoldProductsRows(keys, counters, catalogue);
      MostSoldProductsEntries(keys, counters, catalogue);
      MostSoldProductsOrdered(keys, counters, catalogue);
    }
  }

  lemma MostSoldProductsEntries(keys: seq<int>, counters: map<int, int>, catalogue: map<int, Product>)
    requires keys != []
    ensures forall i :: 0 <= i < |MostSoldProducts(keys, counters, catalogue)| ==>
      var e := MostSoldProducts(keys, counters, catalogue)[i];
      && e.productId in keys && e.productId in catalogue
      && e.quantitySold == Count(counters, e.productId) && e.quantitySold > 0
      && e.productName == catalogue[e.productId].name && e.price == catalogue[e.productId].price
      && e.totalRevenue == e.quantitySold as real * e.price
  {
    var r := MostSoldProducts(keys, counters, catalogue);
    var sorted := SortDesc(SalesRows(keys, counters, catalogue), SoldKey);
    MostSoldProductsRows(keys, counters, catalogue);
    forall i | 0 <= i < |r|
      ensures r[i].productId in keys && r[i].productId in catalogue
      ensures r[i].quantitySold == Count(counters, r[i].productId) && r[i].quantitySold > 0
      ensures r[i].productName == catalogue[r[i].productId].name && r[i].price == catalogue[r[i].productId].price
      ensures r[i].totalRevenue == r[i].quantitySold as real * r[i].price
    {
      SortedSaleAt(keys, counters, catalogue, i);
      RankedSale(r[i], i + 1, sorted[i], counters, catalogue);
    }
  }

  lemma MostSoldProductsOrdered(keys: seq<int>, counters: map<int, int>, catalogue: map<int, Product>)
    requires keys != []
    ensures forall i, j :: 0 <= i < j < |MostSoldProducts(keys, counters, catalogue)| ==>
      MostSoldProducts(keys, counters, catalogue)[j].quantitySold <= MostSoldProducts(keys, counters, catalogue)[i].quantitySold
  {
    var r := MostSoldProducts(keys, counters, catalogue);
    var sorted := SortDesc(SalesRows(keys, counters, catalogue), SoldKey);
    MostSoldProductsRows(keys, counters, catalogue);
    forall i, j | 0 <= i < j < |r| ensures r[j].quantitySold <= r[i].quantitySold {
      SortedSalesFacts(keys, counters, catalogue);
      assert SoldKey(sorted[j]) <= SoldKey(sorted[i]);
    }
  }

  /** When the cache lists each counter key once, no product appears twice in the report. */
  lemma MostSoldProductsDistinct(keys: seq<int>, counters: map<int, int>, catalogue: map<int, Product>)
    requires NoDuplicates(keys)
    ensures forall i, j :: 0 <= i < j < |MostSoldProducts(keys, counters, catalogue)| ==>
      MostSoldProducts(keys, counters, catalogue)[i].productId != MostSoldProducts(keys, counters, catalogue)[j].productId
  {
    if keys != [] {
      var r := MostSoldProducts(keys, counters, catalogue);
      var sorted := SortDesc(SalesRows(keys, counters, catalogue), SoldKey);
      SortedSalesFacts(keys, counters, catalogue);
      MostSoldProductsRows(keys, counters, catalogue);
      forall i, j | 0 <= i < j < |r| ensures r[i].productId != r[j].productId {
        assert sorted[i] != sorted[j];
      }
    }
  }

  /** An eligible product that is not in the best-sellers report sold no more than the tenth product listed. */
  lemma MostSoldProductsOmits(keys: seq<int>, counters: map<int, int>, catalogue: map<int, Product>, p: int)
    requires p in keys && Eligible(p, counters, catalogue)
    requires forall i :: 0 <= i < |MostSoldProducts(keys, counters, catalogue)| ==> MostSoldProducts(keys, counters, catalogue)[i].productId != p
    ensures |MostSoldProducts(keys, counters, catalogue)| == 10
    ensures Count(counters, p) <= MostSoldProducts(keys, counters, catalogue)[9].quantitySold
  {
    var r := MostSoldProducts(keys, counters, catalogue);
    var sorted := SortDesc(SalesRows(keys, counters, catalogue), SoldKey);
    SortedSalesFacts(keys, counters, catalogue);
    MostSoldProductsRows(keys, counters, catalogue);
    var x := SaleOf(p, counters, catalogue);
    var top := Take(sorted, 10);
    assert forall i :: 0 <= i < |top| ==> r[i] == Ranked(i + 1, top[i]) && top[i] != x;
    OutsideTop(sorted, SoldKey, 10, x);
    assert top[9] in top;
    assert SoldKey(x) <= SoldKey(top[9]);
  }

  /**
   * The report over the cache itself: `KEYS product_sales:*` lists each counter key
   * once. The report is empty exactly when no counter is positive for a catalogued
   * product, every entry names a counter, no product appears twice, and an eligible
   * counter left out means a full report whose tenth entry sold at least as much.
   */
  lemma MostSoldProductsOverCounters(keys: seq<int>, counters: map<int, int>, catalogue: map<int, Product>)
    requires NoDuplicates(keys) && forall p :: p in keys <==> p in counters
    ensures MostSoldProducts(keys, counters, catalogue) == [] <==>
      forall p :: p in counters ==> !Eligible(p, counters, catalogue)
    ensures forall i :: 0 <= i < |MostSoldProducts(keys, counters, catalogue)| ==>
      MostSoldProducts(keys, counters, catalogue)[i].productId in counters
    ensures forall i, j :: 0 <= i < j < |MostSoldProducts(keys, counters, catalogue)| ==>
      MostSoldProducts(keys, counters, catalogue)[i].productId != MostSoldProducts(keys, counters, catalogue)[j].productId
    ensures forall p ::
      (&& p in counters && Eligible(p, counters, catalogue)
       && forall i :: 0 <= i < |MostSoldProducts(keys, counters, catalogue)| ==> MostSoldProducts(keys, counters, catalogue)[i].productId != p) ==>
        |MostSoldProducts(keys, counters, catalogue)| == 10 && Count(counters, p) <= MostSoldProducts(keys, counters, catalogue)[9].quantitySold
  {
    var r := MostSoldProducts(keys, counters, catalogue);
    MostSoldProductsFacts(keys, counters, catalogue);
    MostSoldProductsDistinct(keys, counters, catalogue);
    forall p | p in counters && Eligible(p, counters, catalogue) && (forall i :: 0 <= i < |r| ==> r[i].productId != p)
      ensures |r| == 10 && Count(counters, p) <= r[9].quantitySold
    {
      MostSoldProductsOmits(keys, counters, catalogue, p);
    }
    if r != [] {
      assert r[0].productId in counters && Eligible(r[0].productId, counters, catalogue);
    }
  }
}

=== FILE: sales.dfy ===
/**
 * The `product_sales:<pid>` counters: what a run of INCRBY or DECRBY commands does
 * to them, and the number of units the ledger says each product has sold.
 */
module Sales {
  import opened Types
  import opened Ranking

  /** The units of product `p` in `lines`: the sum of the truncated quantities of its lines. */
  function Units(lines: seq<Line>, p: int): int
  {
    if lines == [] then 0
    else
      var last := lines[|lines| - 1];
      Units(lines[..|lines| - 1], p) + (if last.productId == p then Truncate(last.quantity) else 0)
  }

  function ProductIds(lines: seq<Line>): set<int>
  {
    set l | l in lines :: l.productId
  }

  /** The counters after `INCRBY product_sales:<pid> int(quantity)` for each line in turn. */
  function Credit(counters: map<int, int>, lines: seq<Line>): (r: map<int, int>)
    ensures counters.Keys <= r.Keys
  {
    if lines == [] then counters
    else
      var before := Credit(counters, lines[..|lines| - 1]);
      var last := lines[|lines| - 1];
      before[last.productId := Count(before, last.productId) + Truncate(last.quantity)]
  }

  /** The counters after `DECRBY product_sales:<pid> int(quantity)` for each line in turn. */
  function Debit(counters: map<int, int>, lines: seq<Line>): (r: map<int, int>)
    ensures counters.Keys <= r.Keys
  {
    if lines == [] then counters
    else
      var before := Debit(counters, lines[..|lines| - 1]);
      var last := lines[|lines| - 1];
      before[last.productId := Count(before, last.productId) - Truncate(last.quantity)]
  }

  lemma ProductIdsSnoc(lines: seq<Line>)
    requires lines != []
    ensures ProductIds(lines) == ProductIds(lines[..|lines| - 1]) + {lines[|lines| - 1].productId}
  {
    assert lines == lines[..|lines| - 1] + [lines[|lines| - 1]];
  }

  /** A product none of the lines mention sells no units. */
  lemma {:induction false} UnitsOutside(lines: seq<Line>, p: int)
    requires p !in ProductIds(lines)
    ensures Units(lines, p) == 0
  {
    if lines != [] {
      ProductIdsSnoc(lines);
      UnitsOutside(lines[..|lines| - 1], p);
    }
  }

  /**
   * Incrementing by each line raises every counter by the units of its product,
   * and creates the keys of the products the lines mention.
   */
  lemma {:induction false} CreditCount(counters: map<int, int>, lines: seq<Line>)
    ensures forall p :: Count(Credit(counters, lines), p) == Count(counters, p) + Units(lines, p)
    ensures Credit(counters, lines).Keys == counters.Keys + ProductIds(lines)
  {
    if lines != [] {
      CreditCount(counters, lines[..|lines| - 1]);
      ProductIdsSnoc(lines);
    }
  }

  /** Decrementing by each line lowers every counter by the units of its product. */
  lemma {:induction false} DebitCount(counters: map<int, int>, lines: seq<Line>)
    ensures forall p :: Count(Debit(counters, lines), p) == Count(counters, p) - Units(lines, p)
    ensures Debit(counters, lines).Keys == counters.Keys + ProductIds(lines)
  {
    if lines != [] {
      DebitCount(counters, lines[..|lines| - 1]);
      ProductIdsSnoc(lines);
    }
  }

  /**
   * Decrementing by the lines an increment used gives every counter back its value;
   * the keys the increment created stay, holding 0.
   */
  lemma {:induction false} DebitUndoesCredit(counters: map<int, int>, lines: seq<Line>)
    ensures forall p :: Count(Debit(Credit(counters, lines), lines), p) == Count(counters, p)
    ensures Debit(Credit(counters, lines), lines).Keys == counters.Keys + ProductIds(lines)
  {
    CreditCount(counters, lines);
    DebitCount(Credit(counters, lines), lines);
  }

  /** The units of product `p` in order `id`. */
  function OrderUnits(items: map<int, seq<OrderItem>>, id: int, p: int): int
  {
    Units(Lines(ItemsAt(items, id)), p)
  }

  /** The units of product `p` summed over the orders `ids`, in no particular order. */
  ghost function SalesOf(ids: set<int>, items: map<int, seq<OrderItem>>, p: int): int
    decreases ids
  {
    if ids == {} then 0
    else
      assert (forall z :: z !in ids) ==> ids == {};
      var id :| id in ids;
      OrderUnits(items, id, p) + SalesOf(ids - {id}, items, p)
  }

  /** Any order of the set can be taken out of the sum first. */
  lemma {:induction false} SalesOfRemove(ids: set<int>, items: map<int, seq<OrderItem>>, p: int, x: int)
    requires x in ids
    ensures SalesOf(ids, items, p) == OrderUnits(items, x, p) + SalesOf(ids - {x}, items, p)
    decreases ids
  {
    var y :| y in ids && SalesOf(ids, items, p) == OrderUnits(items, y, p) + SalesOf(ids - {y}, items, p);
    if y != x {
      SalesOfRemove(ids - {y}, items, p, x);
      SalesOfRemove(ids - {x}, items, p, y);
      assert ids - {y} - {x} == ids - {x} - {y};
    }
  }

  /** The sum over `ids` reads only the item rows of the orders in `ids`. */
  lemma {:induction false} SalesOfFrame(ids: set<int>, items: map<int, seq<OrderItem>>, items': map<int, seq<OrderItem>>, p: int)
    requires forall id :: id in ids ==> ItemsAt(items, id) == ItemsAt(items', id)
    ensures SalesOf(ids, items, p) == SalesOf(ids, items', p)
    decreases ids
  {
    if ids != {} {
      assert (forall z :: z !in ids) ==> ids == {};
      var y :| y in ids;
      SalesOfRemove(ids, items, p, y);
      SalesOfRemove(ids, items', p, y);
      SalesOfFrame(ids - {y}, items, items', p);
    }
  }

  /** The units of product `p` summed over the orders `ids`, in sequence order. */
  function SeqSales(ids: seq<int>, items: map<int, seq<OrderItem>>, p: int): int
  {
    if ids == [] then 0
    else SeqSales(ids[..|ids| - 1], items, p) + OrderUnits(items, ids[|ids| - 1], p)
  }

  /** The orders a sequence of order ids names. */
  function Elems(ids: seq<int>): set<int>
  {
    set x | x in ids
  }

  lemma ElemsSnoc(ids: seq<int>)
    requires ids != []
    requires NoDuplicates(ids)
    ensures NoDuplicates(ids[..|ids| - 1])
    ensures ids[|ids| - 1] !in ids[..|ids| - 1]
    ensures Elems(ids) - {ids[|ids| - 1]} == Elems(ids[..|ids| - 1])
  {
    var init, last := ids[..|ids| - 1], ids[|ids| - 1];
    assert ids == init + [last];
    forall i, j | 0 <= i < j < |init| ensures init[i] != init[j] {
      assert init[i] == ids[i] && init[j] == ids[j];
    }
    forall i | 0 <= i < |init| ensures init[i] != last {
      assert init[i] == ids[i];
    }
  }

  /** Summing a sequence of distinct orders gives the sum over the set of them. */
  lemma {:induction false} SeqSalesIsSalesOf(ids: seq<int>, items: map<int, seq<OrderItem>>, p: int)
    requires NoDuplicates(ids)
    ensures SeqSales(ids, items, p) == SalesOf(Elems(ids), items, p)
  {
    if ids == [] {
      assert Elems(ids) == {};
    } else {
      var init, last := ids[..|ids| - 1], ids[|ids| - 1];
      ElemsSnoc(ids);
      SeqSalesIsSalesOf(init, items, p);
      var all := Elems(ids);
      assert last in all;
      SalesOfRemove(all, items, p, last);
    }
  }
}

=== FILE: types.dfy ===
/** Values shared by the order ledger, the cache and the two reports. */
module Types {

  datatype Option<+T> = None | Some(value: T)

  datatype Result<+T, +E> = Ok(value: T) | Err(error: E)

  /** A catalogue row: its display name and its current price. */
  datatype Product = Product(name: string, price: real)

  /** A committed ledger order. `createdAt` is kept as the text a sync copies into the cache. */
  datatype Order = Order(id: int, userId: int, totalAmount: real, createdAt: string)

  /** A priced order line before it is attached to an order (one `order_items_data` entry). */
  datatype Line = Line(productId: int, quantity: real, unitPrice: real)

  /** A ledger item row: a priced line that belongs to order `orderId`. */
  datatype OrderItem = OrderItem(orderId: int, productId: int, quantity: real, unitPrice: real)

  /** The fields of the `order:<id>` hash, already decoded to typed values. */
  datatype CachedOrder = CachedOrder(id: int, userId: int, totalAmount: real, createdAt: string)

  function LineOf(row: OrderItem): Line
  {
    Line(row.productId, row.quantity, row.unitPrice)
  }

  /** The priced lines of a sequence of item rows, in row order. */
  function Lines(rows: seq<OrderItem>): (ls: seq<Line>)
    ensures |ls| == |rows|
    ensures forall i :: 0 <= i < |rows| ==> ls[i] == LineOf(rows[i])
  {
    seq(|rows|, i requires 0 <= i < |rows| => LineOf(rows[i]))
  }

  /** The sum of unit price times quantity over `lines`, accumulated left to right. */
  function Amount(lines: seq<Line>): (total: real)
    ensures (forall i :: 0 <= i < |lines| ==> 0.0 <= lines[i].unitPrice && 0.0 <= lines[i].quantity) ==> 0.0 <= total
  {
    if lines == [] then 0.0
    else Amount(lines[..|lines| - 1]) + lines[|lines| - 1].unitPrice * lines[|lines| - 1].quantity
  }

  /** The denormalised projection of a ledger order that the cache stores. */
  function Project(o: Order): CachedOrder
  {
    CachedOrder(o.id, o.userId, o.totalAmount, o.createdAt)
  }

  /**
   * A cached order and a ledger order agree on id, user and total. `created_at` is not
   * compared: an added order's hash holds the time of the cache write, a synced one the
   * ledger's value.
   */
  predicate SameOrder(c: CachedOrder, o: Order)
  {
    c.id == o.id && c.userId == o.userId && c.totalAmount == o.totalAmount
  }

  /** Python's `int()` applied to a float: truncation toward zero. */
  function Truncate(q: real): (n: int)
    ensures 0.0 <= q ==> 0 <= n && n as real <= q < n as real + 1.0
    ensures q < 0.0 ==> n <= 0 && n as real - 1.0 < q <= n as real
  {
    if q >= 0.0 then q.Floor else -((-q).Floor)
  }

  /** The value of counter `p`; a key that does not exist reads as 0 (Redis GET ... or 0). */
  function Count(counters: map<int, int>, p: int): int
  {
    if p in counters then counters[p] else 0
  }

  /** Each ledger order is stored under its own id (the primary key). */
  predicate OrdersKeyed(orders: map<int, Order>)
  {
    forall id :: id in orders ==> orders[id].id == id
  }

  /** Each `order:<id>` hash carries `id` in its own id field. */
  predicate HashesKeyed(hashes: map<int, CachedOrder>)
  {
    forall id :: id in hashes ==> hashes[id].id == id
  }

  /** The item rows stored for order `id`; none when there is no such order. */
  function ItemsAt(items: map<int, seq<OrderItem>>, id: int): seq<OrderItem>
  {
    if id in items then items[id] else []
  }
}

=== FILE: write_order.dfy ===
/**
 * The write side: placing an order (validation, ledger insert, cache record),
 * deleting one, and refilling an empty cache from the ledger.
 */
module WriteOrder {
  import opened Types
  import opened Ranking
  import opened Sales
  import opened LedgerStore
  import opened CacheStore
  import opened ReadOrder
  import opened Mirror

  /**
   * One entry of the `items` argument, with `product_id` and `quantity` as they
   * parse; `None` stands for a value that `int()` or `float()` rejects (or a key
   * that is missing).
   */
  datatype RawItem = RawItem(productId: Option<int>, quantity: Option<real>)

  /** Why `add_order` refused an order; `position` is the index of the offending item. */
  datatype AddError =
    | MissingUserOrItems
    | InvalidProductId(position: nat)
    | InvalidQuantity(position: nat)
    | NonPositiveQuantity(position: nat)
    | UnknownProduct(position: nat, productId: int)

  /** The item's quantity parses to a positive number and the catalogue holds its product. */
  predicate Passes(item: RawItem, catalogue: map<int, Product>)
  {
    item.productId.Some? && item.quantity.Some? && item.quantity.value > 0.0 && item.productId.value in catalogue
  }

  /** The order line of an item that passes, at the catalogue's current price. */
  function PricedLine(item: RawItem, catalogue: map<int, Product>): Line
    requires Passes(item, catalogue)
  {
    Line(item.productId.value, item.quantity.value, catalogue[item.productId.value].price)
  }

  /** Item `k` is the first that does not pass. */
  predicate FirstFailure(items: seq<RawItem>, catalogue: map<int, Product>, k: nat)
  {
    k < |items| && !Passes(items[k], catalogue) && forall j :: 0 <= j < k ==> Passes(items[j], catalogue)
  }

  /** The product ids in item order, or the first item whose id does not parse. */
  function ParseIds(items: seq<RawItem>): (r: Result<seq<int>, AddError>)
    ensures r.Ok? <==> forall i :: 0 <= i < |items| ==> items[i].productId.Some?
    ensures r.Ok? ==> |r.value| == |items| && forall i :: 0 <= i < |items| ==> r.value[i] == items[i].productId.value
    ensures r.Err? ==> r.error.InvalidProductId? && r.error.position < |items|
    ensures r.Err? ==> items[r.error.position].productId.None?
    ensures r.Err? ==> forall j :: 0 <= j < r.error.position ==> items[j].productId.Some?
  {
    if items == [] then Ok([])
    else
      var init, last := items[..|items| - 1], items[|items| - 1];
      assert forall i :: 0 <= i < |init| ==> init[i] == items[i];
      match ParseIds(init)
      case Err(e) => Err(e)
      case Ok(ids) => if last.productId.None? then Err(InvalidProductId(|init|)) else Ok(ids + [last.productId.value])
  }

  /**
   * The order lines in item order, or the error of the first item that fails, checked
   * as the pricing loop does: the quantity parses, is positive, and the product exists.
   */
  function PriceAll(items: seq<RawItem>, catalogue: map<int, Product>): (r: Result<seq<Line>, AddError>)
    requires forall i :: 0 <= i < |items| ==> items[i].productId.Some?
    ensures r.Ok? <==> forall i :: 0 <= i < |items| ==> Passes(items[i], catalogue)
    ensures r.Ok? ==> |r.value| == |items|
    ensures r.Ok? ==> forall i :: 0 <= i < |items| ==> Passes(items[i], catalogue) && r.value[i] == PricedLine(items[i], catalogue)
    ensures r.Err? ==> r.error.InvalidQuantity? || r.error.NonPositiveQuantity? || r.error.UnknownProduct?
    ensures r.Err? && r.error.InvalidQuantity? ==>
      FirstFailure(items, catalogue, r.error.position) && items[r.error.position].quantity.None?
    ensures r.Err? && r.error.NonPositiveQuantity? ==>
      FirstFailure(items, catalogue, r.error.position) && items[r.error.position].quantity.Some?
      && items[r.error.position].quantity.value <= 0.0
    ensures r.Err? && r.error.UnknownProduct? ==>
      FirstFailure(items, catalogue, r.error.position) && items[r.error.position].quantity.Some?
      && items[r.error.position].quantity.value > 0.0 && r.error.productId == items[r.error.position].productId.value
      && r.error.productId !in catalogue
  {
    if items == [] then Ok([])
    else
      var init, last := items[..|items| - 1], items[|items| - 1];
      assert forall i :: 0 <= i < |init| ==> init[i] == items[i];
      match PriceAll(init, catalogue)
      case Err(e) => Err(e)
      case Ok(lines) =>
        if last.quantity.None? then Err(InvalidQuantity(|init|))
        else if last.quantity.value <= 0.0 then Err(NonPositiveQuantity(|init|))
        else if last.productId.value !in catalogue then Err(UnknownProduct(|init|, last.productId.value))
        else Ok(lines + [PricedLine(last, catalogue)])
  }

  /**
   * The checks `add_order` makes before it writes anything, in its order: a user and
   * at least one item, every product id parses, then item by item the quantity and
   * the product.
   */
  function Validate(userId: int, items: seq<RawItem>, catalogue: map<int, Product>): (r: Result<seq<Line>, AddError>)
    ensures r.Ok? <==> userId != 0 && items != [] && forall i :: 0 <= i < |items| ==> Passes(items[i], catalogue)
    ensures r.Ok? ==> |r.value| == |items| && forall i :: 0 <= i < |items| ==> Passes(items[i], catalogue) && r.value[i] == PricedLine(items[i], catalogue)
    ensures (r.Err? && r.error.MissingUserOrItems?) <==> (userId == 0 || items == [])
    ensures r.Err? && r.error.InvalidProductId? ==> ParseIds(items) == Err(r.error)
    ensures r.Err? && !r.error.MissingUserOrItems? && !r.error.InvalidProductId? ==>
      ParseIds(items).Ok? && PriceAll(items, catalogue) == Err(r.error)
  {
    if userId == 0 || items == [] then Err(MissingUserOrItems)
    else
      match ParseIds(items)
      case Err(e) => Err(e)
      case Ok(_) => PriceAll(items, catalogue)
  }

  /** The `order_items` rows of order `id`, one per line. */
  function ItemRows(id: int, lines: seq<Line>): (rows: seq<OrderItem>)
    ensures Lines(rows) == lines
    ensures forall i :: 0 <= i < |rows| ==> rows[i].orderId == id
  {
    var rows := seq(|lines|, i requires 0 <= i < |lines| => OrderItem(id, lines[i].productId, lines[i].quantity, lines[i].unitPrice));
    assert Lines(rows) == lines;
    rows
  }

  /** The first loop of `add_order`: `int(item['product_id'])` for each item in turn. */
  method ParseProductIds(items: seq<RawItem>) returns (r: Result<seq<int>, AddError>)
    ensures r == ParseIds(items)
  {
    var ids: seq<int> := [];
    var k := 0;
    while k < |items|
      invariant 0 <= k <= |items|
      invariant ParseIds(items[..k]) == Ok(ids)
    {
      assert items[..k + 1][..k] == items[..k];
      assert forall j :: 0 <= j < k ==> items[..k][j] == items[j];
      if items[k].productId.None? {
        return Err(InvalidProductId(k));
      }
      ids := ids + [items[k].productId.value];
      k := k + 1;
    }
    assert items[..k] == items;
    r := Ok(ids);
  }

  lemma FirstFailureUnique(items: seq<RawItem>, catalogue: map<int, Product>, k: nat, k': nat)
    requires FirstFailure(items, catalogue, k) && FirstFailure(items, catalogue, k')
    ensures k == k'
  {
  }

  /** When every item before `k` passes, item `k` decides the pricing error. */
  lemma PriceAllFailsAt(items: seq<RawItem>, catalogue: map<int, Product>, k: nat)
    requires forall i :: 0 <= i < |items| ==> items[i].productId.Some?
    requires k < |items| && forall j :: 0 <= j < k ==> Passes(items[j], catalogue)
    ensures items[k].quantity.None? ==> PriceAll(items, catalogue) == Err(InvalidQuantity(k))
    ensures items[k].quantity.Some? && items[k].quantity.value <= 0.0 ==>
      PriceAll(items, catalogue) == Err(NonPositiveQuantity(k))
    ensures items[k].quantity.Some? && items[k].quantity.value > 0.0 && items[k].productId.value !in catalogue ==>
      PriceAll(items, catalogue) == Err(UnknownProduct(k, items[k].productId.value))
  {
    var r := PriceAll(items, catalogue);
    if !Passes(items[k], catalogue) {
      assert r.Err?;
      FirstFailureUnique(items, catalogue, k, r.error.position);
    }
  }

  /**
   * The pricing loop of `add_order`: check each item, price it from the catalogue and
   * add unit price times quantity to the running total.
   */
  method PriceItems(items: seq<RawItem>, catalogue: map<int, Product>) returns (r: Result<seq<Line>, AddError>, total: real)
    requires forall i :: 0 <= i < |items| ==> items[i].productId.Some?
    ensures r == PriceAll(items, catalogue)
    ensures r.Ok? ==> total == Amount(r.value)
  {
    var lines: seq<Line> := [];
    total := 0.0;
    var k := 0;
    while k < |items|
      invariant 0 <= k <= |items| && |lines| == k
      invariant forall j :: 0 <= j < k ==> Passes(items[j], catalogue) && lines[j] == PricedLine(items[j], catalogue)
      invariant total == Amount(lines)
    {
      var pid := items[k].productId.value;
      if items[k].quantity.None? {
        PriceAllFailsAt(items, catalogue, k);
        return Err(InvalidQuantity(k)), total;
      }
      var qty := items[k].quantity.value;
      if qty <= 0.0 {
        PriceAllFailsAt(items, catalogue, k);
        return Err(NonPositiveQuantity(k)), total;
      }
      if pid !in catalogue {
        PriceAllFailsAt(items, catalogue, k);
        return Err(UnknownProduct(k, pid)), total;
      }
      var line := Line(pid, qty, catalogue[pid].price);
      assert (lines + [line])[..|lines|] == lines;
      total := total + line.unitPrice * qty;
      lines := lines + [line];
      k := k + 1;
    }
    r := Ok(lines);
    assert PriceAll(items, catalogue).Ok?;
    assert PriceAll(items, catalogue).value == lines;
  }

  /** `INCRBY product_sales:<pid> int(quantity)` for each line in turn. */
  method IncrementSales(cache: Cache, lines: seq<Line>)
    modifies cache
    ensures cache.counters == Credit(old(cache.counters), lines)
    ensures cache.hashes == old(cache.hashes) && cache.index == old(cache.index)
  {
    var k := 0;
    while k < |lines|
      invariant 0 <= k <= |lines|
      invariant cache.counters == Credit(old(cache.counters), lines[..k])
      invariant cache.hashes == old(cache.hashes) && cache.index == old(cache.index)
    {
      assert lines[..k + 1][..k] == lines[..k];
      var pid := lines[k].productId;
      cache.counters := cache.counters[pid := Count(cache.counters, pid) + Truncate(lines[k].quantity)];
      k := k + 1;
    }
    assert lines[..k] == lines;
  }

  /** `DECRBY product_sales:<pid> int(quantity)` for each line in turn. */
  method DecrementSales(cache: Cache, lines: seq<Line>)
    modifies cache
    ensures cache.counters == Debit(old(cache.counters), lines)
    ensures cache.hashes == old(cache.hashes) && cache.index == old(cache.index)
  {
    var k := 0;
    while k < |lines|
      invariant 0 <= k <= |lines|
      invariant cache.counters == Debit(old(cache.counters), lines[..k])
      invariant cache.hashes == old(cache.hashes) && cache.index == old(cache.index)
    {
      assert lines[..k + 1][..k] == lines[..k];
      var pid := lines[k].productId;
      cache.counters := cache.counters[pid := Count(cache.counters, pid) - Truncate(lines[k].quantity)];
      k := k + 1;
    }
    assert lines[..k] == lines;
  }

  /**
   * `add_order_to_redis`: write the order hash, add the id to the index set and count
   * the truncated quantity of every line against its product.
   */
  method AddOrderToRedis(cache: Cache, orderId: int, userId: int, totalAmount: real, lines: seq<Line>, now: string)
    requires cache.Valid()
    modifies cache
    ensures cache.Valid()
    ensures cache.hashes == old(cache.hashes)[orderId := CachedOrder(orderId, userId, totalAmount, now)]
    ensures cache.index == old(cache.index) + {orderId}
    ensures cache.counters == Credit(old(cache.counters), lines)
  {
    cache.hashes := cache.hashes[orderId := CachedOrder(orderId, userId, totalAmount, now)];
    cache.index := cache.index + {orderId};
    IncrementSales(cache, lines);
  }

  /**
   * The checks `add_order` makes before it writes anything: a user and at least one
   * item, then every product id parsed, then each item priced in turn.
   */
  method CheckOrder(userId: int, items: seq<RawItem>, catalogue: map<int, Product>)
    returns (r: Result<seq<Line>, AddError>, total: real)
    ensures r == Validate(userId, items, catalogue)
    ensures r.Ok? ==> total == Amount(r.value)
  {
    if userId == 0 || |items| == 0 {
      return Err(MissingUserOrItems), 0.0;
    }
    var parsed := ParseProductIds(items);
    if parsed.Err? {
      return Err(parsed.error), 0.0;
    }
    r, total := PriceItems(items, catalogue);
  }

  /**
   * `add_order`: validate, insert the order and its item rows in the ledger, then
   * record it in the cache. A refused order changes neither store. `createdAt` is
   * whatever the ledger records for the new row, and `now` the time the cache write
   * reads; the two need not be equal.
   */
  method AddOrder(ledger: Ledger, cache: Cache, userId: int, items: seq<RawItem>, createdAt: string, now: string)
    returns (r: Result<int, AddError>)
    requires ledger.Valid() && cache.Valid()
    modifies ledger, cache
    ensures ledger.Valid() && cache.Valid()
    ensures r.Ok? <==> Validate(userId, items, old(ledger.catalogue)).Ok?
    ensures r.Err? ==> r.error == Validate(userId, items, old(ledger.catalogue)).error
    ensures r.Err? ==> unchanged(ledger) && unchanged(cache)
    ensures r.Ok? ==>
      var lines := Validate(userId, items, old(ledger.catalogue)).value;
      var id := old(ledger.nextId);
      var order := Order(id, userId, Amount(lines), createdAt);
      && r.value == id
      && ledger.orders == old(ledger.orders)[id := order]
      && ledger.items == old(ledger.items)[id := ItemRows(id, lines)]
      && ledger.nextId == id + 1 && ledger.catalogue == old(ledger.catalogue)
      && cache.hashes == old(cache.hashes)[id := CachedOrder(id, userId, Amount(lines), now)]
      && cache.index == old(cache.index) + {id}
      && cache.counters == Credit(old(cache.counters), lines)
    ensures r.Ok? ==>
      GetOrderById(cache.hashes, r.value).Some? && SameOrder(GetOrderById(cache.hashes, r.value).value, ledger.orders[r.value])
    ensures r.Ok? ==> forall p ::
      Count(cache.counters, p) == Count(old(cache.counters), p) + OrderUnits(ledger.items, r.value, p)
    ensures r.Ok? ==> forall p :: p !in ProductIds(Lines(ledger.items[r.value])) ==>
      Count(cache.counters, p) == Count(old(cache.counters), p)
    ensures old(Mirrors(ledger.orders, ledger.items, cache.hashes, cache.index, cache.counters)) ==>
      Mirrors(ledger.orders, ledger.items, cache.hashes, cache.index, cache.counters)
  {
    var checked, total := CheckOrder(userId, items, ledger.catalogue);
    if checked.Err? {
      return Err(checked.error);
    }
    var lines := checked.value;
    var id := ledger.nextId;
    var order := Order(id, userId, total, createdAt);
    var rows := ItemRows(id, lines);
    assert RowsOf(rows, id) by {
      forall row | row in rows ensures row.orderId == id && row.quantity > 0.0 {
        var i :| 0 <= i < |rows| && rows[i] == row;
        assert Lines(rows)[i] == lines[i];
      }
    }
    ledger.Commit(order, rows);
    AddOrderToRedis(cache, id, userId, total, lines, now);
    r := Ok(id);
    assert Lines(ledger.items[id]) == lines;
    forall p
      ensures Count(cache.counters, p) == Count(old(cache.counters), p) + Units(lines, p)
      ensures p !in ProductIds(lines) ==> Count(cache.counters, p) == Count(old(cache.counters), p)
    {
      CreditCount(old(cache.counters), lines);
      if p !in ProductIds(lines) {
        UnitsOutside(lines, p);
      }
    }
    if old(Mirrors(ledger.orders, ledger.items, cache.hashes, cache.index, cache.counters)) {
      AddKeepsMirror(old(ledger.orders), old(ledger.items), old(cache.hashes), old(cache.index), old(cache.counters),
                     order, rows, CachedOrder(id, userId, total, now));
    }
  }

  /** `delete_order_from_redis` given the item rows to decrement by: counters, then hash, then index entry. */
  method DeleteOrderFromRedis(cache: Cache, orderId: int, lines: seq<Line>)
    requires cache.Valid()
    modifies cache
    ensures cache.Valid()
    ensures cache.hashes == old(cache.hashes) - {orderId} && cache.index == old(cache.index) - {orderId}
    ensures cache.counters == Debit(old(cache.counters), lines)
  {
    DecrementSales(cache, lines);
    cache.hashes := cache.hashes - {orderId};
    cache.index := cache.index - {orderId};
  }

  /**
   * `delete_order`, with the order's item rows read before the ledger delete: returns 1
   * and removes the order from both stores, or returns 0 and changes nothing when the
   * ledger has no such order.
   */
  method DeleteOrder(ledger: Ledger, cache: Cache, orderId: int) returns (deleted: int)
    requires ledger.Valid() && cache.Valid()
    modifies ledger, cache
    ensures ledger.Valid() && cache.Valid()
    ensures deleted == if orderId in old(ledger.orders) then 1 else 0
    ensures deleted == 0 ==> unchanged(ledger) && unchanged(cache)
    ensures deleted == 1 ==>
      && ledger.orders == old(ledger.orders) - {orderId} && ledger.items == old(ledger.items) - {orderId}
      && ledger.nextId == old(ledger.nextId) && ledger.catalogue == old(ledger.catalogue)
      && cache.hashes == old(cache.hashes) - {orderId} && cache.index == old(cache.index) - {orderId}
      && cache.counters == Debit(old(cache.counters), Lines(old(ledger.items)[orderId]))
    ensures deleted == 1 ==> GetOrderById(cache.hashes, orderId) == None
    ensures deleted == 1 ==> forall p ::
      Count(cache.counters, p) == Count(old(cache.counters), p) - OrderUnits(old(ledger.items), orderId, p)
    ensures old(Mirrors(ledger.orders, ledger.items, cache.hashes, cache.index, cache.counters)) ==>
      Mirrors(ledger.orders, ledger.items, cache.hashes, cache.index, cache.counters)
  {
    if orderId !in ledger.orders {
      return 0;
    }
    var rows := ledger.ItemsOf(orderId);
    ledger.Delete(orderId);
    DeleteOrderFromRedis(cache, orderId, Lines(rows));
    DebitCount(old(cache.counters), Lines(rows));
    if old(Mirrors(ledger.orders, ledger.items, cache.hashes, cache.index, cache.counters)) {
      DeleteKeepsMirror(old(ledger.orders), old(ledger.items), old(cache.hashes), old(cache.index), old(cache.counters), orderId);
    }
    return 1;
  }

  /** `delete_order_from_redis` as written: it reads the order's item rows from the ledger itself. */
  method DeleteOrderFromRedisAsWritten(ledger: Ledger, cache: Cache, orderId: int)
    requires cache.Valid()
    modifies cache
    ensures cache.Valid()
    ensures cache.hashes == old(cache.hashes) - {orderId} && cache.index == old(cache.index) - {orderId}
    ensures cache.counters == Debit(old(cache.counters), Lines(ledger.ItemsOf(orderId)))
  {
    var rows := ledger.ItemsOf(orderId);
    DeleteOrderFromRedis(cache, orderId, Lines(rows));
  }

  /**
   * `delete_order` as written: the cache is updated after the ledger delete has
   * committed, so the item rows are already gone and no counter is decremented. The
   * cache then stops mirroring the ledger unless the order held no units at all.
   */
  method DeleteOrderAsWritten(ledger: Ledger, cache: Cache, orderId: int) returns (deleted: int)
    requires ledger.Valid() && cache.Valid()
    modifies ledger, cache
    ensures ledger.Valid() && cache.Valid()
    ensures deleted == if orderId in old(ledger.orders) then 1 else 0
    ensures deleted == 0 ==> unchanged(ledger) && unchanged(cache)
    ensures deleted == 1 ==>
      && ledger.orders == old(ledger.orders) - {orderId} && ledger.items == old(ledger.items) - {orderId}
      && ledger.nextId == old(ledger.nextId) && ledger.catalogue == old(ledger.catalogue)
      && cache.hashes == old(cache.hashes) - {orderId} && cache.index == old(cache.index) - {orderId}
      && cache.counters == old(cache.counters)
    ensures deleted == 1 && old(Mirrors(ledger.orders, ledger.items, cache.hashes, cache.index, cache.counters)) ==>
      (Mirrors(ledger.orders, ledger.items, cache.hashes, cache.index, cache.counters)
       <==> forall p :: OrderUnits(old(ledger.items), orderId, p) == 0)
  {
    if orderId !in ledger.orders {
      return 0;
    }
    ledger.Delete(orderId);
    DeleteOrderFromRedisAsWritten(ledger, cache, orderId);
    if old(Mirrors(ledger.orders, ledger.items, cache.hashes, cache.index, cache.counters)) {
      DeleteWithoutDebitMirror(old(ledger.orders), old(ledger.items), old(cache.hashes), old(cache.index), old(cache.counters), orderId);
    }
    return 1;
  }

  /**
   * One order of two units of product 1, placed and then deleted with the code as
   * written: the ledger is empty again but the cache still counts the two units.
   */
  method AsWrittenDeleteKeepsSales() returns (ordersLeft: int, unitsCounted: int)
    ensures ordersLeft == 0 && unitsCounted == 2
  {
    var ledger := new Ledger(map[1 := Product("p", 1.0)]);
    var cache := new Cache();
    var placed := AddOrder(ledger, cache, 1, [RawItem(Some(1), Some(2.0))], "t0", "t1");
    assert Passes(RawItem(Some(1), Some(2.0)), ledger.catalogue);
    assert Truncate(2.0) == 2;
    var deleted := DeleteOrderAsWritten(ledger, cache, placed.value);
    ordersLeft := |ledger.orders|;
    unitsCounted := Count(cache.counters, 1);
  }

  /** The same order placed and deleted with the corrected delete: the counter is back to 0. */
  method CorrectedDeleteClearsSales() returns (ordersLeft: int, unitsCounted: int)
    ensures ordersLeft == 0 && unitsCounted == 0
  {
    var ledger := new Ledger(map[1 := Product("p", 1.0)]);
    var cache := new Cache();
    var placed := AddOrder(ledger, cache, 1, [RawItem(Some(1), Some(2.0))], "t0", "t1");
    assert Passes(RawItem(Some(1), Some(2.0)), ledger.catalogue);
    assert Truncate(2.0) == 2;
    var deleted := DeleteOrder(ledger, cache, placed.value);
    ordersLeft := |ledger.orders|;
    unitsCounted := Count(cache.counters, 1);
  }

  /**
   * Placing an order and deleting it again restores the ledger's orders, item rows and
   * catalogue, and the cache, whenever the cache holds nothing yet under the next id.
   * The auto-increment id stays advanced; counters are restored in value, a key the
   * order created stays at 0. A cache that mirrored the ledger still does.
   */
  method AddThenDelete(ledger: Ledger, cache: Cache, userId: int, items: seq<RawItem>, createdAt: string, now: string)
    returns (r: Result<int, AddError>, deleted: int)
    requires ledger.Valid() && cache.Valid()
    requires ledger.nextId !in cache.hashes && ledger.nextId !in cache.index
    modifies ledger, cache
    ensures ledger.Valid() && cache.Valid()
    ensures deleted == if r.Ok? then 1 else 0
    ensures ledger.orders == old(ledger.orders) && ledger.items == old(ledger.items)
    ensures ledger.catalogue == old(ledger.catalogue)
    ensures ledger.nextId == old(ledger.nextId) + (if r.Ok? then 1 else 0)
    ensures cache.hashes == old(cache.hashes) && cache.index == old(cache.index)
    ensures forall p :: Count(cache.counters, p) == Count(old(cache.counters), p)
    ensures old(Mirrors(ledger.orders, ledger.items, cache.hashes, cache.index, cache.counters)) ==>
      Mirrors(ledger.orders, ledger.items, cache.hashes, cache.index, cache.counters)
  {
    r := AddOrder(ledger, cache, userId, items, createdAt, now);
    deleted := 0;
    if r.Ok? {
      var id := r.value;
      ghost var lines := Validate(userId, items, old(ledger.catalogue)).value;
      assert id !in old(ledger.orders) && id !in old(ledger.items);
      assert id !in old(cache.hashes) && id !in old(cache.index);
      ghost var order, rows, hash := ledger.orders[id], ledger.items[id], cache.hashes[id];
      deleted := DeleteOrder(ledger, cache, id);
      UpdateThenRemove(old(ledger.orders), id, order);
      UpdateThenRemove(old(ledger.items), id, rows);
      UpdateThenRemove(old(cache.hashes), id, hash);
      DebitUndoesCredit(old(cache.counters), lines);
    }
  }

  /** Adding a key that was absent and removing it again gives back the map. */
  lemma UpdateThenRemove<K, V>(m: map<K, V>, k: K, v: V)
    requires k !in m
    ensures m[k := v] - {k} == m
  {
    assert (m[k := v] - {k}).Keys == m.Keys;
  }

  /** Syncing one more order adds its id to the set and its units to every product's sum. */
  lemma SyncStep(ids: seq<int>, k: nat, items: map<int, seq<OrderItem>>)
    requires k < |ids|
    ensures Elems(ids[..k + 1]) == Elems(ids[..k]) + {ids[k]}
    ensures forall p :: SeqSales(ids[..k + 1], items, p) == SeqSales(ids[..k], items, p) + OrderUnits(items, ids[k], p)
  {
    assert ids[..k + 1] == ids[..k] + [ids[k]];
    assert ids[..k + 1][..k] == ids[..k];
  }

  /** The body of the sync loop for one ledger order: its hash, its index entry, its item rows counted. */
  method SyncOrder(ledger: Ledger, cache: Cache, o: Order)
    modifies cache
    ensures cache.hashes == old(cache.hashes)[o.id := Project(o)]
    ensures cache.index == old(cache.index) + {o.id}
    ensures forall p :: Count(cache.counters, p) == Count(old(cache.counters), p) + OrderUnits(ledger.items, o.id, p)
  {
    cache.hashes := cache.hashes[o.id := Project(o)];
    cache.index := cache.index + {o.id};
    var rows := ledger.ItemsOf(o.id);
    ghost var before := cache.counters;
    IncrementSales(cache, Lines(rows));
    CreditCount(before, Lines(rows));
  }

  /** The ids of a list of orders, in list order. */
  function IdsOf(os: seq<Order>): (ids: seq<int>)
    ensures |ids| == |os| && forall i :: 0 <= i < |os| ==> ids[i] == os[i].id
  {
    seq(|os|, i requires 0 <= i < |os| => os[i].id)
  }

  /** The sync loop over the ledger listing, writing into a cache without order hashes. */
  method SyncOrders(ledger: Ledger, cache: Cache, synced: seq<Order>) returns (rowsAdded: int)
    requires cache.hashes == map[]
    requires forall i :: 0 <= i < |synced| ==> synced[i].id in ledger.orders && ledger.orders[synced[i].id] == synced[i]
    modifies cache
    ensures rowsAdded == |synced|
    ensures cache.hashes.Keys == Elems(IdsOf(synced))
    ensures forall id :: id in cache.hashes ==> id in ledger.orders && cache.hashes[id] == Project(ledger.orders[id])
    ensures cache.index == old(cache.index) + Elems(IdsOf(synced))
    ensures forall p :: Count(cache.counters, p) == Count(old(cache.counters), p) + SeqSales(IdsOf(synced), ledger.items, p)
  {
    ghost var ids := IdsOf(synced);
    rowsAdded := 0;
    var k := 0;
    while k < |synced|
      invariant 0 <= k <= |synced| && rowsAdded == k
      invariant cache.hashes.Keys == Elems(ids[..k])
      invariant forall id :: id in cache.hashes ==> id in ledger.orders && cache.hashes[id] == Project(ledger.orders[id])
      invariant cache.index == old(cache.index) + Elems(ids[..k])
      invariant forall p :: Count(cache.counters, p) == Count(old(cache.counters), p) + SeqSales(ids[..k], ledger.items, p)
    {
      SyncStep(ids, k, ledger.items);
      SyncOrder(ledger, cache, synced[k]);
      rowsAdded := rowsAdded + 1;
      k := k + 1;
    }
    assert ids[..k] == ids;
  }

  /**
   * The branch of `sync_all_orders_to_redis` that runs on a cache without order
   * hashes: every order of the ledger listing is written with its sales.
   */
  method RebuildCache(ledger: Ledger, cache: Cache) returns (rowsAdded: int)
    requires OrdersKeyed(ledger.orders) && cache.hashes == map[]
    modifies cache
    ensures rowsAdded == |OrdersFromMysql(ledger.orders, 9999)|
    ensures cache.hashes.Keys == Elems(NewestIds(ledger.orders.Keys, 9999))
    ensures forall id :: id in cache.hashes ==> id in ledger.orders && cache.hashes[id] == Project(ledger.orders[id])
    ensures cache.index == old(cache.index) + Elems(NewestIds(ledger.orders.Keys, 9999))
    ensures forall p ::
      Count(cache.counters, p) == Count(old(cache.counters), p) + SalesOf(Elems(NewestIds(ledger.orders.Keys, 9999)), ledger.items, p)
  {
    var synced := OrdersFromMysql(ledger.orders, 9999);
    ghost var ids := NewestIds(ledger.orders.Keys, 9999);
    assert IdsOf(synced) == ids && forall i :: 0 <= i < |synced| ==> synced[i].id in ledger.orders && ledger.orders[synced[i].id] == synced[i] by {
      OrdersFromMysqlIds(ledger.orders, 9999);
    }
    rowsAdded := SyncOrders(ledger, cache, synced);
    forall p ensures SeqSales(ids, ledger.items, p) == SalesOf(Elems(ids), ledger.items, p) {
      SeqSalesIsSalesOf(ids, ledger.items, p);
    }
  }

  /**
   * `sync_all_orders_to_redis`: when the cache holds no order hash, write every order
   * the ledger listing returns (hash, index entry, its item rows counted) and return
   * how many; otherwise change nothing and return the number of hashes.
   */
  method SyncAllOrdersToRedis(ledger: Ledger, cache: Cache) returns (count: int)
    requires OrdersKeyed(ledger.orders) && cache.Valid()
    modifies cache
    ensures cache.Valid()
    ensures old(cache.hashes) != map[] ==> unchanged(cache) && count == |old(cache.hashes)|
    ensures old(cache.hashes) == map[] ==>
      var synced := Elems(NewestIds(ledger.orders.Keys, 9999));
      && count == |OrdersFromMysql(ledger.orders, 9999)|
      && cache.hashes.Keys == synced
      && (forall id :: id in cache.hashes ==> id in ledger.orders && cache.hashes[id] == Project(ledger.orders[id]))
      && cache.index == old(cache.index) + synced
      && forall p :: Count(cache.counters, p) == Count(old(cache.counters), p) + SalesOf(synced, ledger.items, p)
    ensures old(cache.hashes) == map[] && old(cache.index) == {} && (forall p :: Count(old(cache.counters), p) == 0)
            && |ledger.orders| <= 9999 ==>
      Mirrors(ledger.orders, ledger.items, cache.hashes, cache.index, cache.counters)
  {
    var keys := cache.hashes.Keys;
    assert |keys| == |cache.hashes|;
    var rowsAdded := 0;
    if |keys| == 0 {
      assert cache.hashes == map[];
      rowsAdded := RebuildCache(ledger, cache);
      if old(cache.index) == {} && (forall p :: Count(old(cache.counters), p) == 0) && |ledger.orders| <= 9999 {
        WholeListing(ledger.orders);
        RebuiltMirror(ledger.orders, ledger.items, cache.hashes, cache.index, cache.counters, old(cache.counters),
                      Elems(NewestIds(ledger.orders.Keys, 9999)));
      }
    }
    count := |keys| + rowsAdded;
  }
}
